=== FILE: README.md ===
# Pause. — a verified model of its request-handling core

Pause. is a web application: a user pastes a political or social claim and
gets back an "Insight", meaning background, sourced facts, perspectives and
conversation tips written by a language model. This project models in Dafny
the parts of the server that decide what the user receives:

- **Source trust** (`TrustPolicy`, `trust_policy.dfy`). A fixed allowlist of
  34 institutional domains, the host check that admits an entry and its
  subdomains after removing one leading `www.`, and `verifyUrl`, which sends
  the HEAD liveness probe only for a URL that passed the host check.
- **Daily quota** (`RateLimit`, `rate_limit.dfy`). The `rate_limits` table is
  a sequence of rows `(ipHash, count, windowStart)`. `checkRateLimit` inserts
  a fresh window, rejects at 400, or raises the count. `getRemainingCount`
  only reads. Both are methods of a class over that table, and each is
  proved against a specification function.
- **Response parsing and post-processing** (`Gemini`, `gemini.dfy`).
  `parseJsonResponse` tries three candidates in turn: the whole text, then
  the first fenced block, then the brace span. The parsed payload is then
  cleaned: a fact or reference with a missing or untrusted URL is dropped,
  the others carry the probe's `verified` flag, `hasUnverifiedSources` is
  set, and defaults are filled in.
- **The analyze endpoint** (`AnalyzeRoute`, `analyze_route.dfy`). The
  caller's address comes from the headers, the quota is charged before the
  body is read, then come the body checks in source order and the mapping
  of each outcome to status 200, 400, 429 or 500.
- **The targets endpoint** (`Targets`, `targets.dfy`). Creating a tracked
  person normalises every optional field. Listing returns only the caller's
  rows, newest update first, each with the time of its latest analysis.
- **The middleware** (`Middleware`, `middleware.dfy`). The public paths
  pass; any other path needs a non-empty session cookie.
- **Text export** (`Export`, `export.dfy`). `buildTextContent` produces the
  clipboard text of an Insight.

`JsText` (`js_text.dfy`) gives the JavaScript string operations the core
relies on: `trim` with the ECMAScript whitespace set, `.length` counted in
UTF-16 code units, `startsWith`, `endsWith`, `indexOf`, `lastIndexOf` and
`join`. `Wrappers` holds `Option` and `Result`.

Anything the core reaches outside itself is a function parameter:

- `parse`: `JSON.parse`, which returns None where it would throw.
- `hostOf`: the WHATWG URL host parser, which returns None where `new URL`
  throws.
- `probe`: the outcome of the HEAD request.
- `complete`: the model call, keyed by the claim and mode its prompt is
  built from.
- `hash`: the salted address hash.

Time (`now`, `generatedAt`) and the session's user id are parameters too.

In these places the code departs from the intended design, and the model
follows the code:

- The 24-hour window bound is inclusive (`gte`).
- The table is append-only. An expired window is never deleted; a new row
  is added.
- The increment rewrites every row of the caller, live or expired, not only
  the live one.
- The read and the write of the quota are not one atomic step.
- The 2000-character limit counts UTF-16 code units, so a character outside
  the Basic Multilingual Plane counts as two.

## Model

Four small helpers have no row of their own, because their meaning is stated by
the rows that use them:

- `TrustPolicy.StripWww`: StripWwwOnce, WwwUnTrusted, SubdomainMatches and MatchEndsWith.
- `RateLimit.SetCount`: Admit (its increment and untouched-caller clauses) and FindLiveSetCount.
- `Gemini.ParseCandidate`: ParseJsonResponse and BadFenceIsFinal.
- `AnalyzeRoute.ModeOf`: ValidateBody.

The predicates `TrustPolicy.IsTrustedHost`, `TrustPolicy.IsTrustedDomain`,
`Middleware.IsPublicPath`, the summary builder `Targets.Summarize` and the
functions `Export.BuildTextContent` and `Export.SourceLine` are likewise
described through the lemmas about them.

| member | source | states |
|---|---|---|
| JsText.Trim | app/api/analyze/route.ts:41-48 | `trim()` returns the one slice of the input between its leading and trailing whitespace; the result neither starts nor ends with whitespace, and it is empty exactly when the input is all whitespace |
| JsText.TrimIdempotent | app/api/analyze/route.ts:63 | trimming twice gives the same as trimming once, so the claim handed to the analyser is stable under another trim |
| JsText.Utf16Length | app/api/analyze/route.ts:48 | `.length` counts UTF-16 code units: at least one and at most two per character |
| JsText.Utf16LengthBmp | app/api/analyze/route.ts:48 | for text inside the Basic Multilingual Plane, `.length` equals the number of characters |
| JsText.Utf16LengthAstral | app/api/analyze/route.ts:48 | each character above U+FFFF (an emoji, say) counts as two code units, so `.length` is twice the number of characters |
| JsText.Utf16LengthAppend | app/api/analyze/route.ts:48 | code units add up over concatenation, so with the two lemmas above `.length` is one per BMP character plus two per astral character |
| JsText.IndexOf | lib/gemini.ts:14 | the first occurrence of a pattern at or after a position, and no occurrence before it |
| JsText.IndexOfChar | app/api/analyze/route.ts:9 | the first index of a character, and none before it (this locates the first comma of `split(",")[0]`) |
| JsText.LastIndexOfChar | lib/gemini.ts:16 | the last index holding a character; every other occurrence comes before it |
| JsText.JoinSnoc | components/ExportButtons.tsx:17 | `join` puts the separator between the old parts and a new last part |
| JsText.JoinCount | components/ExportButtons.tsx:17 | joining newline-free lines with "\n" puts exactly one newline between each pair of neighbours |
| TrustPolicy.StripWwwOnce | lib/validateSources.ts:44 | only one leading "www." is removed; a second one stays part of the host |
| TrustPolicy.VerifyUrl | lib/validateSources.ts:53-68 | the probe is sent exactly when the URL is trusted; the result is true exactly when the URL is trusted and the probe returned an `ok` response; a timeout or exception gives false |
| TrustPolicy.VerifiedImpliesTrusted | lib/validateSources.ts:54 | a verified URL is always a trusted one |
| TrustPolicy.UntrustedNeverProbed | lib/validateSources.ts:54 | an untrusted URL gives false and no request is sent for it |
| TrustPolicy.UnparseableUntrusted | lib/validateSources.ts:48-50 | a URL that does not parse is untrusted and unverified, never an exception |
| TrustPolicy.EntryTrusted | lib/validateSources.ts:2-47 | every allowlist entry is trusted, both bare and with a "www." prefix |
| TrustPolicy.WwwUnTrusted | lib/validateSources.ts:44-47 | "www.un.org" is trusted through the entry "un.org" |
| TrustPolicy.SubdomainTrusted | lib/validateSources.ts:44-47 | any proper subdomain of an entry is trusted, including one that starts with "www." |
| TrustPolicy.WwwSubdomainTrusted | lib/validateSources.ts:44-47 | "www." followed by any subdomain of an entry is trusted |
| TrustPolicy.TrustedHostEndsWithEntry | lib/validateSources.ts:42-51 | `isTrustedDomain` only ever admits a host that ends with some allowlist entry |
| TrustPolicy.SubdomainMatches | lib/validateSources.ts:44-46 | a subdomain of any domain still matches that domain once "www." is stripped, so the dot boundary survives the strip |
| TrustPolicy.MatchEndsWith | lib/validateSources.ts:44-46 | a host that matches an entry once "www." is stripped ends with that entry |
| TrustPolicy.PubmedMatchesTwoEntries | lib/validateSources.ts:36-39 | pubmed.ncbi.nlm.nih.gov matches its own entry and also, as a subdomain, ncbi.nlm.nih.gov |
| TrustPolicy.DotBoundary | lib/validateSources.ts:46 | a suffix match always has a dot right before the entry |
| TrustPolicy.EvilWhoNotTrusted | lib/validateSources.ts:46 | "evilwho.int" ends with the characters of "who.int" but is not trusted, because the dot boundary is required |
| RateLimit.FindLive | lib/rateLimit.ts:38-42 | the `select ... limit(1)` returns a live row of the caller and no live row comes before it |
| RateLimit.RemainingCount | lib/rateLimit.ts:16-29 | the full 400 without a live row; otherwise what is left, never negative and, on valid tables, below 400 |
| RateLimit.Admit | lib/rateLimit.ts:31-64 | admitted exactly when there is no live row or its count is under 400; a new window reports 399; an increment over live count c reports 400 - c - 1 and sets every row of the caller to c + 1; a rejection reports 0 and changes nothing; the table only grows, by at most the one row `(hash, 1, now)`; other callers' rows are untouched; table validity is preserved |
| RateLimit.FindLiveSetCount | lib/rateLimit.ts:58-61 | rewriting counts changes no row's liveness, so the same row is found afterwards |
| RateLimit.RemainingAfterAdmit | lib/rateLimit.ts:16-29 | what an admission reports as remaining equals what `getRemainingCount` reports right after it, in every branch |
| RateLimit.RemainingOfAnyLiveRow | lib/rateLimit.ts:16-29 | on a valid table with no future rows, `getRemainingCount` is `max(0, 400 - count)` of the caller's live row, whichever row that is |
| RateLimit.AtMostOneLive | lib/rateLimit.ts:38-51 | on a valid table with no future rows, a caller has at most one live row, so `limit(1)` is unambiguous |
| RateLimit.OlderRowsExpired | lib/rateLimit.ts:44-51 | every row of a caller except the newest has expired |
| RateLimit.AdmitKeepsNotAfter | lib/rateLimit.ts:48 | with a clock that never goes back, no call creates a row from the future |
| RateLimit.WindowBoundaryInclusive | lib/rateLimit.ts:24 | a window that started exactly 24 hours ago still counts; one millisecond later the caller has the full quota again |
| RateLimit.ExpiredWindowAdmits | lib/rateLimit.ts:44-50 | once all of a caller's rows have expired, the next call appends a fresh row and reports 399 remaining |
| RateLimit.AdmitSingle | lib/rateLimit.ts:53-63 | on a single live row under the limit, a call raises the count by one and reports the rest of the quota |
| RateLimit.FreshRun | lib/rateLimit.ts:44-63 | from an empty table, the first n ≤ 400 calls are admitted with 399, 398, … remaining and leave one row counting n |
| RateLimit.DailyQuota | lib/rateLimit.ts:44-63 | within one window, `DAILY_LIMIT` (400) calls are admitted down to 0 remaining and the 401st is rejected |
| RateLimit.RateLimiter.SelectLive | lib/rateLimit.ts:38-42 | the scan over the table returns exactly the row `FindLive` specifies |
| RateLimit.RateLimiter.GetRemainingCount | lib/rateLimit.ts:16-29 | read-only; returns `RemainingCount` of the current table, between 0 and 400 |
| RateLimit.RateLimiter.CheckRateLimit | lib/rateLimit.ts:31-64 | the answer and the new table are exactly `Admit` of the old table, and validity is kept |
| Gemini.FencedBlock | lib/gemini.ts:14 | there is a block exactly when a second fence follows the first; it runs from after the first fence and its optional "json" tag up to the next fence, so it contains no fence of its own (the lazy match stops at the first closing fence) |
| Gemini.TaggedBlock | lib/gemini.ts:14 | after a fence tagged "json", the block runs from just after the tag up to the next fence |
| Gemini.UntaggedBlock | lib/gemini.ts:14 | after an untagged first fence, the block runs from just after that fence up to the next fence |
| Gemini.NoFenceBefore | lib/gemini.ts:14 | a slice that ends at the first fence found from a position holds no fence |
| Gemini.BraceSpan | lib/gemini.ts:16 | the greedy match is the text from the first "{" to the last "}", both included; it is absent exactly when no "{" comes before a "}" |
| Gemini.ParseJsonResponse | lib/gemini.ts:10-20 | text that parses as a whole is returned as it is; any success is the parse of the candidate actually chosen (the whole text, else the trimmed fenced block, else the brace span); "No JSON found" occurs exactly when none of the three exists |
| Gemini.BadFenceIsFinal | lib/gemini.ts:15 | a fenced block that does not parse is final, and the brace span is never tried |
| Gemini.EmbeddedInFence | lib/gemini.ts:14-15 | when the first fence is a ```json fence, the trimmed payload between it and the next fence is what is parsed, whatever single backticks the text holds |
| Gemini.EmbeddedInBareFence | lib/gemini.ts:14-15 | the same for an untagged ``` fence: the payload starts right after it |
| Gemini.EmbeddedInProse | lib/gemini.ts:14-17 | a JSON object inside prose with no fenced block is recovered as if parsed on its own; this includes a truncated answer with a single opening fence |
| Gemini.NoCandidate | lib/gemini.ts:18 | text with neither a fence nor a "{" fails with "No JSON found" |
| Gemini.Keep | lib/gemini.ts:137-138 | `map(...).filter(Boolean)` keeps only present results, each coming from some input |
| Gemini.KeepAppend | lib/gemini.ts:137-138 | filtering works element by element, so the input order is preserved |
| Gemini.KeepComplete | lib/gemini.ts:137-138 | no present result is lost |
| Gemini.KeepCompleteAll | lib/gemini.ts:137-138 | every present result of every input survives the filter |
| Gemini.AnyOf | lib/gemini.ts:139-141 | `some` holds exactly when some element satisfies the predicate |
| Gemini.CheckFact | lib/gemini.ts:119-126 | a fact is kept exactly when its source has a truthy URL on a trusted domain; a kept fact keeps its claim and source fields, its probe was sent, and `verified` is the probe's verdict |
| Gemini.CheckReference | lib/gemini.ts:128-135 | the same rule for a reference |
| Gemini.CleanFacts | lib/gemini.ts:119-137 | the cleaned facts are exactly the checked forms of the input facts that pass the trust check: each kept fact comes from such an input, and each such input is kept |
| Gemini.CleanReferences | lib/gemini.ts:128-138 | the same for references |
| Gemini.CleanFactsAppend | lib/gemini.ts:119-137 | cleaning distributes over concatenation, so the survivors keep their input order and their duplicates |
| Gemini.CleanFactsSingle | lib/gemini.ts:119-137 | one fact is kept, in its checked form, exactly when it passes the trust check; with `CleanFactsAppend` this fixes the whole result |
| Gemini.CleanReferencesAppend | lib/gemini.ts:128-138 | the same order and duplicate preservation for references |
| Gemini.CleanReferencesSingle | lib/gemini.ts:128-138 | one reference is kept, in its checked form, exactly when it passes the trust check |
| Gemini.PostProcess | lib/gemini.ts:118-155 | every kept fact and reference is on a trusted domain with `verified` equal to its probe's verdict; `hasUnverifiedSources` holds exactly when some kept item is unverified; the language is never empty |
| Gemini.DefaultsApplied | lib/gemini.ts:143-155 | falsy or missing fields get "", [] or "ja", and present ones are kept, including `forSelf` and `forOthers` inside a present tips object; present facts and references are their cleaned forms |
| Gemini.UnconfirmedFactRaisesFlag | lib/gemini.ts:119-141 | a kept fact whose probe did not come back `ok` raises the flag |
| Gemini.UnconfirmedReferenceRaisesFlag | lib/gemini.ts:128-141 | a kept reference whose probe did not come back `ok` raises the flag |
| Gemini.FactsComeFromInput | lib/gemini.ts:119-137 | every kept fact comes from an input fact that passed the trust check |
| Gemini.AnalyzeWithGemini | lib/gemini.ts:107-155 | a failed model call is an error; otherwise the analysis fails exactly when parsing fails, and every parse failure becomes the one "Failed to parse" error; a success is `PostProcess` of the parsed payload |
| AnalyzeRoute.FirstEntry | app/api/analyze/route.ts:9 | `split(",")[0]` is the prefix before the first comma and contains no comma |
| AnalyzeRoute.ClientIp | app/api/analyze/route.ts:8-11 | the trimmed first forwarded entry if it is non-empty, else a non-empty `x-real-ip`, else "unknown"; never empty |
| AnalyzeRoute.ForwardingChainIgnored | app/api/analyze/route.ts:9 | only the first hop of a forwarding chain names the caller |
| AnalyzeRoute.BlankForwardingFallsThrough | app/api/analyze/route.ts:9-11 | a blank first hop falls through to `x-real-ip`, and without that to "unknown" |
| AnalyzeRoute.ValidateBody | app/api/analyze/route.ts:39-60 | accepted exactly when the claim is present, at most 2000 code units after trimming and the mode is "self" or "others"; an accepted claim is the trimmed one; each failure carries the message of the first failing check: missing claim, then too long, then invalid mode |
| AnalyzeRoute.Respond | app/api/analyze/route.ts:14-79 | the status is 200, 400, 429 or 500; 429 exactly when the quota rejected, with remaining header 0; 400 exactly when admitted and the body is unreadable or invalid, with "Invalid request body" or the first failing check's message; an admitted, valid request gets 200 exactly when the analysis of its trimmed claim succeeds, carrying that analysis and the admission's remaining count, and otherwise 500 with the fixed analysis-error message |
| AnalyzeRoute.RejectedWhateverTheBody | app/api/analyze/route.ts:14-27 | a rejected caller gets the same 429 whatever the body holds, since the quota is checked before the body is read |
| AnalyzeRoute.SuccessUsesTrimmedClaim | app/api/analyze/route.ts:62-69 | on success the analyser saw the trimmed claim and its result is what is returned |
| AnalyzeRoute.SuccessDataTrusted | app/api/analyze/route.ts:62-69 | the data of a 200 cites only allowlisted sources, and its flag is set exactly when one of them went unconfirmed |
| AnalyzeRoute.AnalyzerFailureIs500 | app/api/analyze/route.ts:70-79 | any analyser failure on a valid request is a 500 with the fixed message |
| AnalyzeRoute.TrimUnchanged | app/api/analyze/route.ts:48 | a string with no whitespace at either end is its own trim |
| AnalyzeRoute.LengthBoundary | app/api/analyze/route.ts:48-53 | a claim of exactly 2000 code units is accepted, and one of 2001 is rejected as too long |
| AnalyzeRoute.AstralLengthBoundary | app/api/analyze/route.ts:48-53 | 1000 characters above U+FFFF fill the 2000-unit limit and are accepted; 1001 are rejected as too long |
| AnalyzeRoute.Post | app/api/analyze/route.ts:6-80 | the handler charges the quota under the hash of `ClientIp` and answers `Respond` on that admission; the new table is `Admit`'s |
| Targets.Normalize | app/api/targets/route.ts:66-71 | `field?.trim()`, or null when that is falsy, is null exactly when the field is absent or all whitespace, and otherwise the trimmed, non-empty text |
| Targets.StoredFieldsNormalised | app/api/targets/route.ts:61-73 | the inserted row has the caller's id, the trimmed non-empty nickname, each optional field normalised, and both timestamps equal to now |
| Targets.OwnedBy | app/api/targets/route.ts:30 | `where userId = ...` keeps exactly the caller's rows, each with its full multiplicity, and no other row |
| Targets.LastAnalyzedAt | app/api/targets/route.ts:23-27 | null exactly when the target has no history; otherwise the largest `createdAt` among its history rows |
| Targets.Summaries | app/api/targets/route.ts:14-28 | one summary per row, in order |
| Targets.InsertByUpdate | app/api/targets/route.ts:31 | inserting into a newest-first list keeps it newest first and adds exactly the one element |
| Targets.SortByUpdateDesc | app/api/targets/route.ts:31 | `orderBy(desc(updatedAt))` is newest first and a permutation of its input |
| Targets.ListTargets | app/api/targets/route.ts:7-34 | unauthorised exactly when there is no user; otherwise the caller's summaries, newest first |
| Targets.ListedAreOwn | app/api/targets/route.ts:14-31 | every listed entry is a summary of one of the caller's own targets, and every target of the caller is listed |
| Targets.TargetTable.Create | app/api/targets/route.ts:36-76 | 401 exactly without a user; 201 exactly with a user, a readable body and a non-blank nickname (the database rejections listed under "Left out" aside), in which case the one new row is appended under the next id; any other status leaves the table unchanged; the new id is used by no earlier row |
| Targets.TargetTable.List | app/api/targets/route.ts:7-34 | read-only; answers `ListTargets` on the current table, listing only the caller's targets |
| Middleware.Gate | middleware.ts:3-24 | redirected to /login exactly when the path is not public and the cookie is absent or empty |
| Middleware.PublicPathsPass | middleware.ts:7-15 | the login page, the auth API, framework assets and icons pass without a session |
| Middleware.PrefixLookAlikes | middleware.ts:9-12 | the prefix checks also admit look-alikes such as "/iconx", while the exact checks do not |
| Middleware.AnyCookiePasses | middleware.ts:17-23 | any non-empty cookie lets a private path through, its content unchecked |
| Middleware.OnlyPresenceMatters | middleware.ts:17-18 | the gate depends on the cookie only through its being non-empty |
| Export.YearPart | components/ExportButtons.tsx:16 | the " · year" part is empty exactly when the year is falsy |
| Export.SourceLines | components/ExportButtons.tsx:15-16 | one formatted line per source, in order |
| Export.SourcesText | components/ExportButtons.tsx:13-18 | "なし" exactly when there are no sources |
| Export.SourcesTextSingle | components/ExportButtons.tsx:13-18 | a single source gives just its formatted line |
| Export.SourcesTextSnoc | components/ExportButtons.tsx:13-18 | one more source appends a newline and its formatted line, so the block is the sources' lines in order joined by "\n" |
| Export.SectionsInOrder | components/ExportButtons.tsx:12-44 | the text `buildTextContent` returns opens with the title and date block and ends with the disclaimer; the four sections and the sources block appear verbatim, in order, each right after its fixed heading, with nothing else in between |
| Export.Layout | components/ExportButtons.tsx:20-43 | where each piece of the template lands, at the cumulative length of everything before it |
| Export.OneLinePerSource | components/ExportButtons.tsx:13-18 | when no field contains a newline, the sources block has exactly one line per source |
| Export.LineHasNoNewline | components/ExportButtons.tsx:16 | a source line adds no newline of its own |
| Export.YearShown | components/ExportButtons.tsx:16 | a source line (`SourceLine`) is `- label（institution · sourceType）`, with the year suffix exactly when the year is truthy |

## Left out

- The prompt text and the model call with its configuration (lib/gemini.ts:22-109) are out. Only their result is modelled, as the parameter `complete`.
- `JSON.parse` and the WHATWG URL parser are parameters. The model does not parse JSON or URLs itself.
- The HEAD request, its five-second abort and `redirect: "follow"` are abstracted as one `ProbeOutcome` per URL.
- The fact and reference probes run concurrently under `Promise.all`. The model checks them one by one; since the result does not depend on the order, only the latency is lost.
- `hashIp` (SHA-256 over the address plus a salt) is the parameter `hash`. Its collision-freedom is not modelled.
- The quota read and write are separate database calls, so two concurrent requests can both see the same count. The model runs one call at a time.
- The database returns rows from `limit(1)` in an unspecified order. The model takes the first live row in table order. `AtMostOneLive` shows there is at most one on a valid table that holds no row from the future, which a clock that never goes back guarantees (`AdmitKeepsNotAfter`).
- The source computes the window bound and the new row's `windowStart` from two readings of the clock. The model uses one `now` for both.
- A body that is the JSON value `null` makes the destructuring (app/api/analyze/route.ts:39) or the property access (app/api/targets/route.ts:56) throw a TypeError, which the framework turns into its own 500. The model's body is either unreadable or has fields. An array or number body has no fields, and the model covers it as `AnalyzeBody(None, None)` or a `CreateBody` of Nones.
- Targets.TargetTable.Create does not model a non-string `nickname` or a non-string optional field (for example `"ageGroup": 30`). In the source, `?.trim()` then throws and the framework answers 500. `CreateBody` holds only strings.
- Targets.TargetTable.Create does not model the database rejecting the insert, which makes it throw and the framework answer 500. That happens when the trimmed nickname exceeds the column's 100 characters, `ageGroup` exceeds 50, or `relationship` exceeds 100 (db/schema.ts:35-40). It also happens when the session's user id names no users row, through the foreign key at db/schema.ts:34. The middleware and the session reader accept any numeric cookie. The model's 201 is therefore exact only for inserts the database accepts.
- Gemini.PostProcess does not model `facts` or `references` that are present but not arrays. There `.map` throws, and the route answers 500.
- Gemini.AnalyzeWithGemini does not model a payload that parses to the JSON value `null` (the text `null`, or a fenced block holding it). In the source `parsed.facts` then throws at lib/gemini.ts:120, outside the parse try/catch of lines 112-116, and the route answers 500 (app/api/analyze/route.ts:70). The `parse` parameter yields a `RawInsight` with fields, so the model answers 200 with the defaults. The same holds for a `null` element of `facts` or `references`, where `fact.source` or `ref.url` throws; the model has no null element.
- Extra fields carried along by the `...fact`, `...ref` and `...fact.source` spreads are not modelled. Only the declared fields are.
- The `X-RateLimit-Remaining` header is a decimal string in the source; the model keeps it as an integer.
- The export's date line (`new Date().toLocaleString("ja-JP")`) is the parameter `generatedAt`.
- The middleware's `config.matcher`, which keeps the middleware off some static paths altogether, is out; only the function body is modelled. The login redirect's URL is not modelled either.
- Ties in `updatedAt` are ordered differently: the database order is unspecified, while the model's insertion sort has its own order. Only "newest first" and the permutation are stated.
- lib/auth.ts is not part of this model. The user id it reads from the cookie is a parameter (`Option<int>`, None when absent or not a number).
- The other routes (login, me, dialogue history, portrait, ratelimit) and all UI components except `buildTextContent` are not part of this model. This includes the "/ 200" shown by the rate-limit badge.
- The `InsightData` type that `buildTextContent` reads is not part of this model. `Export.ExportData` holds exactly the fields that function uses.
- Targets.NewTarget has no contract of its own; what the inserted row holds is stated by `Targets.StoredFieldsNormalised`.
- Gemini.FencedBlock does not drop the `\s*` whitespace after the opening fence; the caller's `trim()` removes it anyway, so `ParseJsonResponse` is unaffected.

=== FILE: analyze_route.dfy ===
/**
 * The `POST` handler of app/api/analyze/route.ts: derive the caller's address,
 * charge the quota, then validate the body and map the outcome to a status.
 * The quota is charged before the body is even read.
 */
module AnalyzeRoute {
  import opened Wrappers
  import opened JsText
  import opened TrustPolicy
  import opened RateLimit
  import opened Gemini

  /** The trimmed claim may be at most this many UTF-16 code units long. */
  const MaxClaimLength: nat := 2000

  const QuotaMessage: string := "1日のリクエスト上限（400回）に達しました。明日またお試しください。"
  const BodyMessage: string := "Invalid request body"
  const ClaimMissingMessage: string := "言説を入力してください。"
  const ClaimTooLongMessage: string := "入力が長すぎます（最大2000文字）。"
  const ModeMessage: string := "Invalid mode"
  const AnalysisMessage: string := "分析中にエラーが発生しました。しばらくしてからお試しください。"

  /** The two headers the caller's address is taken from; None when absent. */
  datatype Headers = Headers(forwardedFor: Option<string>, realIp: Option<string>)

  /** The body's `claim` and `mode`; None for a field that is missing or not a string. */
  datatype AnalyzeBody = AnalyzeBody(claim: Option<string>, mode: Option<string>)

  /** `body` is None when `req.json()` throws. */
  datatype Request = Request(headers: Headers, body: Option<AnalyzeBody>)

  /** The JSON response: its status, `success`, the `X-RateLimit-Remaining`
      header if set, the analysis on success and the error message otherwise. */
  datatype Response = Response(
    status: int, success: bool, remainingHeader: Option<int>,
    data: Option<Insight>, error: Option<string>)

  /** Everything the route reaches outside itself: the address hash, the model,
      `JSON.parse`, URL host parsing and the HEAD probe. */
  datatype Services = Services(
    hash: string -> string,
    complete: (string, Mode) -> Option<string>,
    parse: string -> Option<RawInsight>,
    hostOf: string -> Option<string>,
    probe: string -> ProbeOutcome)

  /** `s.split(",")[0]`: everything before the first comma. */
  function FirstEntry(s: string): (r: string)
    ensures StartsWith(s, r)
    ensures forall k :: 0 <= k < |r| ==> r[k] != ','
    ensures |r| < |s| ==> s[|r|] == ','
  {
    match IndexOfChar(s, ',')
    case None => s
    case Some(i) => s[..i]
  }

  /** The caller's address: the trimmed first `x-forwarded-for` entry, else
      `x-real-ip` as it is, else "unknown"; an empty value falls through. */
  function ClientIp(h: Headers): (ip: string)
    ensures ip != ""
    ensures h.forwardedFor.Some? && Trim(FirstEntry(h.forwardedFor.value)) != "" ==>
      ip == Trim(FirstEntry(h.forwardedFor.value)) && forall k :: 0 <= k < |ip| ==> ip[k] != ','
    ensures (h.forwardedFor.None? || Trim(FirstEntry(h.forwardedFor.value)) == "") ==>
      ip == if Truthy(h.realIp) then h.realIp.value else "unknown"
  {
    var first := if h.forwardedFor.Some? then Trim(FirstEntry(h.forwardedFor.value)) else "";
    if first != "" then first
    else if Truthy(h.realIp) then h.realIp.value
    else "unknown"
  }

  /** Only the first hop of a forwarding chain names the caller: whatever
      proxies follow it, the caller is charged under that first address. */
  lemma ForwardingChainIgnored(first: string, rest: string, realIp: Option<string>)
    requires forall k :: 0 <= k < |first| ==> first[k] != ','
    requires Trim(first) != ""
    ensures ClientIp(Headers(Some(first + "," + rest), realIp)) == Trim(first)
  {
    var s := first + "," + rest;
    assert s[|first|] == ',';
    assert forall k :: 0 <= k < |first| ==> s[k] == first[k];
    assert IndexOfChar(s, ',') == Some(|first|);
    assert s[..|first|] == first;
  }

  /** A blank first hop falls through to `x-real-ip`, and without that to "unknown". */
  lemma BlankForwardingFallsThrough(rest: string, realIp: Option<string>)
    ensures ClientIp(Headers(Some(" ," + rest), realIp)) ==
      if realIp.Some? && realIp.value != "" then realIp.value else "unknown"
  {
    var s := " ," + rest;
    assert s[0] == ' ' && s[1] == ',';
    assert IndexOfChar(s, ',') == Some(1);
    assert s[..1] == " ";
    assert AllSpace(" ");
  }

  /** A claim and mode that passed validation. */
  datatype ValidRequest = ValidRequest(claim: string, mode: Mode)

  predicate ClaimPresent(claim: Option<string>) {
    claim.Some? && Trim(claim.value) != ""
  }

  predicate ClaimShortEnough(claim: string) {
    Utf16Length(Trim(claim)) <= MaxClaimLength
  }

  /** `mode !== "self" && mode !== "others"` rejects; the two strings select the two modes. */
  function ModeOf(mode: Option<string>): (r: Option<Mode>)
    ensures r.Some? <==> mode == Some("self") || mode == Some("others")
    ensures r == Some(ForSelf) <==> mode == Some("self")
    ensures r == Some(ForOthers) <==> mode == Some("others")
  {
    if mode == Some("self") then Some(ForSelf)
    else if mode == Some("others") then Some(ForOthers)
    else None
  }

  /** The checks of lines 39-60, in their order: claim present, claim short
      enough, then the mode. The error is the message of the first failing check. */
  function ValidateBody(body: AnalyzeBody): (r: Result<ValidRequest, string>)
    ensures r.Success? <==>
      ClaimPresent(body.claim) && ClaimShortEnough(body.claim.value) && ModeOf(body.mode).Some?
    ensures r.Success? ==>
      && r.value.claim == Trim(body.claim.value)
      && r.value.claim != "" && Trim(r.value.claim) == r.value.claim
      && Utf16Length(r.value.claim) <= MaxClaimLength
      && Some(r.value.mode) == ModeOf(body.mode)
    ensures !ClaimPresent(body.claim) ==> r == Failure(ClaimMissingMessage)
    ensures ClaimPresent(body.claim) && !ClaimShortEnough(body.claim.value) ==> r == Failure(ClaimTooLongMessage)
    ensures ClaimPresent(body.claim) && ClaimShortEnough(body.claim.value) && ModeOf(body.mode).None? ==>
      r == Failure(ModeMessage)
    ensures r == Failure(ModeMessage) ==> ClaimPresent(body.claim) && ClaimShortEnough(body.claim.value)
  {
    if !ClaimPresent(body.claim) then Failure(ClaimMissingMessage)
    else if !ClaimShortEnough(body.claim.value) then Failure(ClaimTooLongMessage)
    else match ModeOf(body.mode)
      case None => Failure(ModeMessage)
      case Some(m) =>
        TrimIdempotent(body.claim.value);
        Success(ValidRequest(Trim(body.claim.value), m))
  }

  /** Everything after the quota decision. */
  function Respond(adm: Admission, body: Option<AnalyzeBody>, svc: Services): (r: Response)
    ensures r.status in {200, 400, 429, 500}
    ensures r.success <==> r.status == 200
    ensures r.status == 429 <==> !adm.allowed
    ensures r.status == 429 ==> r.remainingHeader == Some(0)
    ensures r.status == 400 <==> adm.allowed && (body.None? || ValidateBody(body.value).Failure?)
    ensures r.status == 200 ==> r.remainingHeader == Some(adm.remaining) && r.data.Some?
    // An admitted, valid request gets a 200 carrying the analysis of the trimmed
    // claim when that succeeds, and a 500 when it fails.
    ensures adm.allowed && body.Some? && ValidateBody(body.value).Success? ==>
      var a := AnalyzeWithGemini(Trim(body.value.claim.value), ModeOf(body.value.mode).value,
        svc.complete, svc.parse, svc.hostOf, svc.probe);
      && (r.status == 200 <==> a.Success?)
      && (a.Success? ==> r.data == Some(a.value))
      && (a.Failure? ==> r.status == 500 && r.error == Some(AnalysisMessage))
    // A 400 carries the unreadable-body message or the first failing check's message.
    ensures adm.allowed && body.None? ==> r.error == Some(BodyMessage)
    ensures adm.allowed && body.Some? && ValidateBody(body.value).Failure? ==>
      r.error == Some(ValidateBody(body.value).error)
    ensures !adm.allowed ==> r.error == Some(QuotaMessage)
  {
    if !adm.allowed then Response(429, false, Some(0), None, Some(QuotaMessage))
    else match body
      case None => Response(400, false, None, None, Some(BodyMessage))
      case Some(b) =>
        match ValidateBody(b)
        case Failure(msg) => Response(400, false, None, None, Some(msg))
        case Success(v) =>
          match AnalyzeWithGemini(v.claim, v.mode, svc.complete, svc.parse, svc.hostOf, svc.probe)
          case Success(data) => Response(200, true, Some(adm.remaining), Some(data), None)
          case Failure(_) => Response(500, false, None, None, Some(AnalysisMessage))
  }

  /** A rejected caller gets 429 whatever the body holds. */
  lemma RejectedWhateverTheBody(adm: Admission, b1: Option<AnalyzeBody>, b2: Option<AnalyzeBody>, svc: Services)
    requires !adm.allowed
    ensures Respond(adm, b1, svc) == Respond(adm, b2, svc) == Response(429, false, Some(0), None, Some(QuotaMessage))
  {
  }

  /** On success the analyser saw the trimmed claim, and the response carries its
      result and the admission's remaining count. */
  lemma SuccessUsesTrimmedClaim(adm: Admission, b: AnalyzeBody, svc: Services)
    requires Respond(adm, Some(b), svc).status == 200
    ensures b.claim.Some? && ModeOf(b.mode).Some?
    ensures var res := AnalyzeWithGemini(Trim(b.claim.value), ModeOf(b.mode).value, svc.complete, svc.parse, svc.hostOf, svc.probe);
      res.Success? && Respond(adm, Some(b), svc) == Response(200, true, Some(adm.remaining), Some(res.value), None)
  {
  }

  /** The data of a 200 carries the post-processing guarantees: every cited
      source is on the allowlist and the flag tells whether any went unconfirmed. */
  lemma SuccessDataTrusted(adm: Admission, b: AnalyzeBody, svc: Services)
    requires Respond(adm, Some(b), svc).status == 200
    ensures var d := Respond(adm, Some(b), svc).data.value;
      && (forall g :: g in d.facts ==> IsTrustedDomain(g.source.url, svc.hostOf))
      && (forall x :: x in d.references ==> IsTrustedDomain(x.url, svc.hostOf))
      && (d.hasUnverifiedSources <==>
            (exists i :: 0 <= i < |d.facts| && !d.facts[i].source.verified)
            || (exists j :: 0 <= j < |d.references| && !d.references[j].verified))
  {
  }

  /** Any analyser failure on a valid request is a 500 with the fixed message. */
  lemma AnalyzerFailureIs500(adm: Admission, b: AnalyzeBody, svc: Services)
    requires adm.allowed && ValidateBody(b).Success?
    requires var v := ValidateBody(b).value;
      AnalyzeWithGemini(v.claim, v.mode, svc.complete, svc.parse, svc.hostOf, svc.probe).Failure?
    ensures Respond(adm, Some(b), svc) == Response(500, false, None, None, Some(AnalysisMessage))
  {
  }

  /** A string with no whitespace at either end is its own trim. */
  lemma TrimUnchanged(s: string)
    requires s != [] && !IsSpace(s[0]) && !IsSpace(s[|s| - 1])
    ensures Trim(s) == s
  {
  }

  /** A claim of exactly 2000 code units is accepted; one more is too long. */
  lemma {:induction false} LengthBoundary(c: char, m: string)
    requires !IsSpace(c) && c as int <= 0xFFFF
    requires m == "self" || m == "others"
    ensures ValidateBody(AnalyzeBody(Some(seq(2000, _ => c)), Some(m))).Success?
    ensures ValidateBody(AnalyzeBody(Some(seq(2001, _ => c)), Some(m))) == Failure(ClaimTooLongMessage)
  {
    var a, b := seq(2000, _ => c), seq(2001, _ => c);
    TrimUnchanged(a);
    TrimUnchanged(b);
    Utf16LengthBmp(a);
    Utf16LengthBmp(b);
  }

  /** A character outside the Basic Multilingual Plane (an emoji, say) is two
      code units: 1000 of them fill the limit, and 1001 are too long. */
  lemma {:induction false} AstralLengthBoundary(c: char, m: string)
    requires c as int > 0xFFFF
    requires m == "self" || m == "others"
    ensures ValidateBody(AnalyzeBody(Some(seq(1000, _ => c)), Some(m))).Success?
    ensures ValidateBody(AnalyzeBody(Some(seq(1001, _ => c)), Some(m))) == Failure(ClaimTooLongMessage)
  {
    var a, b := seq(1000, _ => c), seq(1001, _ => c);
    assert !IsSpace(c);
    TrimUnchanged(a);
    TrimUnchanged(b);
    Utf16LengthAstral(a);
    Utf16LengthAstral(b);
  }

  /** The `POST` handler over the quota table. */
  method Post(limiter: RateLimiter, req: Request, now: int, svc: Services) returns (resp: Response)
    requires limiter.Valid()
    modifies limiter
    ensures limiter.Valid()
    ensures var s := Admit(old(limiter.rows), svc.hash(ClientIp(req.headers)), now);
      limiter.rows == s.rows && resp == Respond(s.admission, req.body, svc)
  {
    var ip := ClientIp(req.headers);
    var allowed, remaining := limiter.CheckRateLimit(svc.hash(ip), now);
    resp := Respond(Admission(allowed, remaining), req.body, svc);
  }
}

=== FILE: export.dfy ===
/**
 * `buildTextContent` of components/ExportButtons.tsx: the plain-text form of
 * an insight, as copied to the clipboard. The generation-time line is a
 * parameter (`generatedAt`), since it comes from the clock and the locale.
 */
module Export {
  import opened Wrappers
  import opened JsText

  /** A cited source; `sourceLabel` is the source's `label` field. */
  datatype SourceItem = SourceItem(sourceLabel: string, institution: string, sourceType: string, year: Option<string>)

  datatype ExportData = ExportData(
    understanding: string, evidence: string, conversation: string, question: string,
    sources: seq<SourceItem>)

  const Rule: string := "━━━━━━━━━━━━━━━━━━━━━━━━━━━━━━"
  const NoSources: string := "なし"
  const Disclaimer: string :=
    "⚠ AIが生成したInsightです。ソースはご自身でご確認ください。\n※ このInsightはPause.のサーバーおよびデータベースに保存されていません。"

  /** The text before the first section. */
  function Preamble(generatedAt: string): string {
    "Pause. — Insight\n生成日時: " + generatedAt + "\n\n━━━ この言説を読み解く ━━━\n\n"
  }

  const SectionBreak: string := "\n\n"
  const ConversationHeading: string := "\n\n━━━ 大切な人への伝え方 ━━━\n\n"
  const QuestionHeading: string := "\n\n【問いかけの例】\n"
  const SourcesHeading: string := "\n\n" + Rule + "\n\n【参照ソース】\n"
  const Footer: string := "\n\n" + Rule + "\n" + Disclaimer

  /** The ` · year` part, present only for a truthy year. */
  function YearPart(year: Option<string>): (r: string)
    ensures r == "" <==> year.None? || year.value == ""
  {
    if year.Some? && year.value != "" then " · " + year.value else ""
  }

  /** `- label（institution · sourceType · year）`. */
  function SourceLine(s: SourceItem): string {
    "- " + s.sourceLabel + "（" + s.institution + " · " + s.sourceType + YearPart(s.year) + "）"
  }

  function SourceLines(sources: seq<SourceItem>): (r: seq<string>)
    ensures |r| == |sources|
    ensures forall k :: 0 <= k < |sources| ==> r[k] == SourceLine(sources[k])
  {
    if sources == [] then [] else [SourceLine(sources[0])] + SourceLines(sources[1..])
  }

  /** The sources block: one line per source joined by newlines, or "なし". */
  function SourcesText(sources: seq<SourceItem>): (r: string)
    ensures sources == [] <==> r == NoSources
  {
    if |sources| > 0 then
      var r := Join(SourceLines(sources), "\n");
      JoinStartsWithFirst(SourceLines(sources), "\n");
      assert r[..2] == "- ";
      r
    else NoSources
  }

  /** A single source is its own line. */
  lemma SourcesTextSingle(s: SourceItem)
    ensures SourcesText([s]) == SourceLine(s)
  {
    assert SourceLines([s]) == [SourceLine(s)];
  }

  /** One more source adds a newline and its line at the end: together with
      `SourcesTextSingle`, the block is the sources' lines in order, joined by "\n". */
  lemma SourcesTextSnoc(sources: seq<SourceItem>, s: SourceItem)
    requires sources != []
    ensures SourcesText(sources + [s]) == SourcesText(sources) + "\n" + SourceLine(s)
  {
    SourcesTextIsJoin(sources);
    SourcesTextIsJoin(sources + [s]);
    SourceLinesSnoc(sources, s);
    JoinSnoc(SourceLines(sources), SourceLine(s), "\n");
  }

  lemma SourcesTextIsJoin(sources: seq<SourceItem>)
    requires sources != []
    ensures SourcesText(sources) == Join(SourceLines(sources), "\n")
  {
  }

  lemma SourceLinesSnoc(sources: seq<SourceItem>, s: SourceItem)
    ensures SourceLines(sources + [s]) == SourceLines(sources) + [SourceLine(s)]
  {
    var all := sources + [s];
    assert forall k :: 0 <= k < |sources| ==> all[k] == sources[k];
    assert all[|sources|] == s;
  }

  /** A join starts with its first part. */
  lemma {:induction false} JoinStartsWithFirst(parts: seq<string>, sep: string)
    requires parts != []
    ensures StartsWith(Join(parts, sep), parts[0])
  {
    if |parts| > 1 {
      JoinStartsWithFirst(parts[..|parts| - 1], sep);
      var init := Join(parts[..|parts| - 1], sep);
      assert (init + sep + parts[|parts| - 1])[..|parts[0]|] == init[..|parts[0]|];
    }
  }

  /** `buildTextContent(data)` with its date line supplied. */
  function BuildTextContent(data: ExportData, generatedAt: string): string {
    Template(Preamble(generatedAt), data.understanding, SectionBreak, data.evidence,
      ConversationHeading, data.conversation, QuestionHeading, data.question,
      SourcesHeading, SourcesText(data.sources), Footer)
  }

  /** `x` occurs in `r` starting at index `at`. */
  predicate PlacedAt(r: string, at: int, x: string) {
    0 <= at && at + |x| <= |r| && r[at..at + |x|] == x
  }

  /** The text opens with the title block and closes with the disclaimer; the
      four sections and the sources block appear verbatim, in order, each right
      after its fixed heading, and nothing else is in between. */
  lemma SectionsInOrder(data: ExportData, generatedAt: string)
    ensures var r := BuildTextContent(data, generatedAt);
      var o1 := |Preamble(generatedAt)|;
      var o2 := o1 + |data.understanding|;
      var o3 := o2 + |SectionBreak|;
      var o4 := o3 + |data.evidence|;
      var o5 := o4 + |ConversationHeading|;
      var o6 := o5 + |data.conversation|;
      var o7 := o6 + |QuestionHeading|;
      var o8 := o7 + |data.question|;
      var o9 := o8 + |SourcesHeading|;
      var o10 := o9 + |SourcesText(data.sources)|;
      && o10 + |Footer| == |r|
      && PlacedAt(r, 0, Preamble(generatedAt))
      && PlacedAt(r, o1, data.understanding)
      && PlacedAt(r, o2, SectionBreak)
      && PlacedAt(r, o3, data.evidence)
      && PlacedAt(r, o4, ConversationHeading)
      && PlacedAt(r, o5, data.conversation)
      && PlacedAt(r, o6, QuestionHeading)
      && PlacedAt(r, o7, data.question)
      && PlacedAt(r, o8, SourcesHeading)
      && PlacedAt(r, o9, SourcesText(data.sources))
      && PlacedAt(r, o10, Footer)
  {
    Layout(Preamble(generatedAt), data.understanding, SectionBreak, data.evidence, ConversationHeading,
      data.conversation, QuestionHeading, data.question, SourcesHeading, SourcesText(data.sources), Footer);
  }

  /** Five fields, each after its heading, and a closing text. */
  function Template(h0: string, x1: string, h1: string, x2: string, h2: string, x3: string,
                    h3: string, x4: string, h4: string, x5: string, h5: string): string
  {
    h0 + x1 + h1 + x2 + h2 + x3 + h3 + x4 + h4 + x5 + h5
  }

  /** Where each piece of a five-field template lands. */
  lemma Layout(h0: string, x1: string, h1: string, x2: string, h2: string, x3: string,
               h3: string, x4: string, h4: string, x5: string, h5: string)
    ensures var r := Template(h0, x1, h1, x2, h2, x3, h3, x4, h4, x5, h5);
      var o1 := |h0|;
      var o2 := o1 + |x1|;
      var o3 := o2 + |h1|;
      var o4 := o3 + |x2|;
      var o5 := o4 + |h2|;
      var o6 := o5 + |x3|;
      var o7 := o6 + |h3|;
      var o8 := o7 + |x4|;
      var o9 := o8 + |h4|;
      var o10 := o9 + |x5|;
      && o10 + |h5| == |r|
      && PlacedAt(r, 0, h0) && PlacedAt(r, o1, x1) && PlacedAt(r, o2, h1)
      && PlacedAt(r, o3, x2) && PlacedAt(r, o4, h2) && PlacedAt(r, o5, x3)
      && PlacedAt(r, o6, h3) && PlacedAt(r, o7, x4) && PlacedAt(r, o8, h4)
      && PlacedAt(r, o9, x5) && PlacedAt(r, o10, h5)
  {
    var p1 := h0 + x1;
    var p2 := p1 + h1;
    var p3 := p2 + x2;
    var p4 := p3 + h2;
    var p5 := p4 + x3;
    var p6 := p5 + h3;
    var p7 := p6 + x4;
    var p8 := p7 + h4;
    var p9 := p8 + x5;
    var r := p9 + h5;
    Peel(r, p9, h5, r);
    Peel(r, p8, x5, p9);
    Peel(r, p7, h4, p8);
    Peel(r, p6, x4, p7);
    Peel(r, p5, h3, p6);
    Peel(r, p4, x3, p5);
    Peel(r, p3, h2, p4);
    Peel(r, p2, x2, p3);
    Peel(r, p1, h1, p2);
    Peel(r, h0, x1, p1);
    Peel(r, [], h0, h0);
  }

  /** Peeling the last piece `x` off a prefix `q == p + x` of `r` leaves a
      shorter prefix `p`, with `x` right after it. */
  lemma Peel(r: string, p: string, x: string, q: string)
    requires q == p + x && |q| <= |r| && r[..|q|] == q
    ensures r[..|p|] == p && PlacedAt(r, |p|, x)
  {
    assert r[..|p|] == r[..|q|][..|p|];
    assert r[|p|..|p| + |x|] == r[..|q|][|p|..];
  }

  /** With no newline inside any field, the sources block has exactly one line per
      source: its newlines separate the sources and nothing else. */
  lemma {:induction false} OneLinePerSource(sources: seq<SourceItem>)
    requires sources != []
    requires forall k :: 0 <= k < |sources| ==> !HasNewline(sources[k])
    ensures CountChar(SourcesText(sources), '\n') == |sources| - 1
  {
    var lines := SourceLines(sources);
    forall i, k | 0 <= i < |lines| && 0 <= k < |lines[i]| ensures lines[i][k] != '\n' {
      LineHasNoNewline(sources[i]);
    }
    JoinCount(lines, '\n');
  }

  predicate HasNewline(s: SourceItem) {
    || '\n' in s.sourceLabel || '\n' in s.institution || '\n' in s.sourceType
    || (s.year.Some? && '\n' in s.year.value)
  }

  lemma LineHasNoNewline(s: SourceItem)
    requires !HasNewline(s)
    ensures '\n' !in SourceLine(s)
  {
  }

  /** The year suffix appears exactly when the year is truthy. */
  lemma YearShown(s: SourceItem)
    ensures var base := "- " + s.sourceLabel + "（" + s.institution + " · " + s.sourceType;
      (s.year.Some? && s.year.value != "") ==> SourceLine(s) == base + " · " + s.year.value + "）"
    ensures var base := "- " + s.sourceLabel + "（" + s.institution + " · " + s.sourceType;
      !(s.year.Some? && s.year.value != "") ==> SourceLine(s) == base + "）"
  {
  }
}

=== FILE: gemini.dfy ===
/**
 * lib/gemini.ts without the model call: extracting the JSON payload from the
 * model's free-form text, and shaping it into what the user sees, where a
 * citation is either dropped (no URL, or an untrusted one) or kept with a
 * `verified` flag from the liveness probe.
 *
 * `JSON.parse` (RFC 8259) is the parameter `parse`, None when it throws. The
 * model call is `complete`, indexed by the claim and mode its prompt is built
 * from, None when it throws.
 */
module Gemini {
  import opened Wrappers
  import opened JsText
  import opened TrustPolicy

  /** The two analysis modes, `"self"` and `"others"`. */
  datatype Mode = ForSelf | ForOthers

  /** Why `parseJsonResponse` throws: `JSON.parse` rejected the chosen candidate,
      or no candidate was found ("No JSON found in response"). */
  datatype ParseError = InvalidJson | NoJsonFound

  const Fence: string := "```"

  /** A fence starts with a backtick. */
  lemma FenceHead(text: string, i: nat)
    ensures OccursAt(text, Fence, i) ==> text[i] == '`'
  {
    if OccursAt(text, Fence, i) {
      assert text[i] == text[i..i + 3][0];
    }
  }

  lemma NoFenceAt(text: string, i: nat)
    requires i < |text| && text[i] != '`'
    ensures !OccursAt(text, Fence, i)
  {
    FenceHead(text, i);
  }

  /** The four characters of a "json" tag are not backticks. */
  lemma TagLetters(text: string, p: nat, q: nat)
    ensures OccursAt(text, "json", p + 3) && p + 3 <= q < p + 7 ==> text[q] != '`'
  {
    if OccursAt(text, "json", p + 3) && p + 3 <= q < p + 7 {
      assert text[q] == text[p + 3..p + 7][q - p - 3];
    }
  }

  /** After an opening fence tagged "json", the closing fence cannot start
      inside the tag. */
  lemma TagBeforeClose(text: string, p: nat, q: nat)
    requires p + 3 <= q && OccursAt(text, Fence, q)
    ensures OccursAt(text, "json", p + 3) ==> p + 7 <= q
  {
    TagLetters(text, p, q);
    FenceHead(text, q);
  }

  /** The inner text of the first match of /```(?:json)?\s*([\s\S]*?)```/, up to
      leading whitespace (which the caller trims off anyway): it starts after the
      first fence and its optional "json" tag, and ends at the next fence. */
  function FencedBlock(text: string): (r: Option<string>)
    // There is a block exactly when a second fence follows the first one.
    ensures r.None? <==>
      IndexOf(text, Fence, 0).None? || IndexOf(text, Fence, IndexOf(text, Fence, 0).value + 3).None?
    // It runs from after the first fence and its optional tag up to the next fence.
    ensures r.Some? ==>
      var p := IndexOf(text, Fence, 0).value;
      var q := IndexOf(text, Fence, p + 3).value;
      var start := if OccursAt(text, "json", p + 3) then p + 7 else p + 3;
      start <= q && r.value == text[start..q]
    ensures r.Some? ==> forall k :: 0 <= k < |r.value| - 2 ==> !OccursAt(r.value, Fence, k)
  {
    match IndexOf(text, Fence, 0)
    case None => None
    case Some(p) =>
      match IndexOf(text, Fence, p + 3)
      case None => None
      case Some(q) =>
        var tagged := OccursAt(text, "json", p + 3);
        var start := if tagged then p + 7 else p + 3;
        TagBeforeClose(text, p, q);
        NoFenceBefore(text, p + 3, q, start);
        Some(text[start..q])
  }

  /** A slice that ends at the first fence found from `from` holds no fence. */
  lemma NoFenceBefore(text: string, from: nat, q: nat, start: nat)
    requires IndexOf(text, Fence, from) == Some(q) && from <= start <= q
    ensures forall k :: 0 <= k < |text[start..q]| - 2 ==> !OccursAt(text[start..q], Fence, k)
  {
    var inner := text[start..q];
    forall k | 0 <= k < |inner| - 2 ensures !OccursAt(inner, Fence, k) {
      assert !OccursAt(text, Fence, start + k);
      assert inner[k..k + 3] == text[start + k..start + k + 3];
    }
  }

  /** The match of /\{[\s\S]*\}/: from the first "{" to the last "}" after it. */
  function BraceSpan(text: string): (r: Option<string>)
    ensures r.Some? ==> 2 <= |r.value| && r.value[0] == '{' && r.value[|r.value| - 1] == '}'
    ensures r.None? <==> forall i, j :: 0 <= i < j < |text| && text[i] == '{' ==> text[j] != '}'
    // The greedy match runs from the first "{" to the last "}", both included.
    ensures r.Some? ==>
      && IndexOfChar(text, '{').Some? && LastIndexOfChar(text, '}').Some?
      && r.value == text[IndexOfChar(text, '{').value..LastIndexOfChar(text, '}').value + 1]
  {
    match IndexOfChar(text, '{')
    case None => None
    case Some(i) =>
      match LastIndexOfChar(text, '}')
      case None => None
      case Some(j) => if i < j then Some(text[i..j + 1]) else None
  }

  /** `parseJsonResponse`: the whole text; failing that, the trimmed fenced
      block if there is one (and nothing else); failing that, the brace span. */
  function ParseJsonResponse<J>(text: string, parse: string -> Option<J>): (r: Result<J, ParseError>)
    ensures parse(text).Some? ==> r == Success(parse(text).value)
    // A success is the parse of the one candidate that was chosen.
    ensures r.Success? ==>
      || parse(text) == Some(r.value)
      || (parse(text).None? && FencedBlock(text).Some? && parse(Trim(FencedBlock(text).value)) == Some(r.value))
      || (parse(text).None? && FencedBlock(text).None? && BraceSpan(text).Some? && parse(BraceSpan(text).value) == Some(r.value))
    ensures r == Failure(NoJsonFound) <==> parse(text).None? && FencedBlock(text).None? && BraceSpan(text).None?
  {
    match parse(text)
    case Some(v) => Success(v)
    case None =>
      match FencedBlock(text)
      case Some(block) => ParseCandidate(Trim(block), parse)
      case None =>
        match BraceSpan(text)
        case Some(span) => ParseCandidate(span, parse)
        case None => Failure(NoJsonFound)
  }

  /** One `JSON.parse` whose exception propagates. */
  function ParseCandidate<J>(candidate: string, parse: string -> Option<J>): (r: Result<J, ParseError>)
    ensures r.Success? <==> parse(candidate).Some?
    ensures r.Success? ==> r.value == parse(candidate).value
    ensures r.Failure? ==> r.error == InvalidJson
  {
    match parse(candidate)
    case Some(v) => Success(v)
    case None => Failure(InvalidJson)
  }

  /** A fenced block that does not parse is final: the brace span is never tried. */
  lemma BadFenceIsFinal<J>(text: string, parse: string -> Option<J>)
    requires parse(text).None? && FencedBlock(text).Some?
    requires parse(Trim(FencedBlock(text).value)).None?
    ensures ParseJsonResponse(text, parse) == Failure(InvalidJson)
  {
  }

  /** When the first fence is a ```json fence at `p` and the next fence is at `q`,
      the payload between them is what gets parsed, trimmed. */
  lemma EmbeddedInFence<J>(text: string, p: nat, q: nat, parse: string -> Option<J>)
    requires OccursAt(text, Fence, p) && OccursAt(text, "json", p + 3)
    requires p + 7 <= q && OccursAt(text, Fence, q)
    requires forall i: nat :: i < p ==> !OccursAt(text, Fence, i)
    requires forall i: nat :: p + 7 <= i < q ==> !OccursAt(text, Fence, i)
    requires parse(text).None?
    ensures ParseJsonResponse(text, parse) == ParseCandidate(Trim(text[p + 7..q]), parse)
  {
    IndexOfFirst(text, Fence, 0, p);
    forall i: nat | p + 3 <= i < p + 7 ensures !OccursAt(text, Fence, i) {
      TagLetters(text, p, i);
      NoFenceAt(text, i);
    }
    IndexOfFirst(text, Fence, p + 3, q);
    TaggedBlock(text, p, q);
  }

  /** The same for a bare ``` fence: the payload starts right after it. */
  lemma EmbeddedInBareFence<J>(text: string, p: nat, q: nat, parse: string -> Option<J>)
    requires OccursAt(text, Fence, p) && !OccursAt(text, "json", p + 3)
    requires p + 3 <= q && OccursAt(text, Fence, q)
    requires forall i: nat :: i < p ==> !OccursAt(text, Fence, i)
    requires forall i: nat :: p + 3 <= i < q ==> !OccursAt(text, Fence, i)
    requires parse(text).None?
    ensures ParseJsonResponse(text, parse) == ParseCandidate(Trim(text[p + 3..q]), parse)
  {
    IndexOfFirst(text, Fence, 0, p);
    IndexOfFirst(text, Fence, p + 3, q);
    UntaggedBlock(text, p, q);
  }

  /** The block after a fence tagged "json" runs from the tag to the next fence. */
  lemma TaggedBlock(text: string, p: nat, q: nat)
    requires IndexOf(text, Fence, 0) == Some(p) && IndexOf(text, Fence, p + 3) == Some(q)
    requires OccursAt(text, "json", p + 3)
    ensures p + 7 <= q && FencedBlock(text) == Some(text[p + 7..q])
  {
    TagBeforeClose(text, p, q);
  }

  /** The block after an untagged fence runs from just after it to the next fence. */
  lemma UntaggedBlock(text: string, p: nat, q: nat)
    requires IndexOf(text, Fence, 0) == Some(p) && IndexOf(text, Fence, p + 3) == Some(q)
    requires !OccursAt(text, "json", p + 3)
    ensures FencedBlock(text) == Some(text[p + 3..q])
  {
  }

  /** A JSON object in prose without a fenced block (at most one fence, as in a
      truncated answer), with no "{" before it and no "}" after it, is recovered
      as if it had been parsed on its own. */
  lemma {:induction false} EmbeddedInProse<J>(pre: string, obj: string, post: string, parse: string -> Option<J>)
    requires FencedBlock(pre + obj + post).None?
    requires forall k :: 0 <= k < |pre| ==> pre[k] != '{'
    requires forall k :: 0 <= k < |post| ==> post[k] != '}'
    requires obj != [] && obj[0] == '{' && obj[|obj| - 1] == '}'
    requires parse(pre + obj + post).None?
    ensures ParseJsonResponse(pre + obj + post, parse) == ParseCandidate(obj, parse)
  {
    var text := pre + obj + post;
    var i, j := |pre|, |pre| + |obj| - 1;
    assert text[i] == '{' && text[j] == '}';
    assert forall k :: 0 <= k < i ==> text[k] == pre[k];
    assert forall k :: j < k < |text| ==> text[k] == post[k - j - 1];
    assert IndexOfChar(text, '{') == Some(i);
    assert LastIndexOfChar(text, '}') == Some(j);
    assert text[i..j + 1] == obj;
  }

  /** Text with neither a fence nor a "{" fails with "No JSON found in response"
      when it does not parse as a whole. */
  lemma NoCandidate<J>(text: string, parse: string -> Option<J>)
    requires forall i: nat :: !OccursAt(text, Fence, i)
    requires forall k :: 0 <= k < |text| ==> text[k] != '{'
    requires parse(text).None?
    ensures ParseJsonResponse(text, parse) == Failure(NoJsonFound)
  {
    assert IndexOf(text, Fence, 0).None?;
  }

  // ---- The parsed payload, as the model is asked to produce it ----

  datatype RawSource = RawSource(title: string, url: Option<string>, institution: string)
  datatype RawFact = RawFact(claim: string, source: Option<RawSource>)
  datatype RawReference = RawReference(title: string, url: Option<string>, institution: string)
  datatype RawTips = RawTips(forSelf: Option<seq<string>>, forOthers: Option<seq<string>>)
  datatype RawInsight = RawInsight(
    inputSummary: Option<string>,
    background: Option<string>,
    facts: Option<seq<RawFact>>,
    perspectives: Option<seq<string>>,
    conversationTips: Option<RawTips>,
    references: Option<seq<RawReference>>,
    language: Option<string>)

  // ---- What the user sees ----

  datatype Source = Source(title: string, url: string, institution: string, verified: bool)
  datatype Fact = Fact(claim: string, source: Source)
  datatype Reference = Reference(title: string, url: string, institution: string, verified: bool)
  datatype Tips = Tips(forSelf: seq<string>, forOthers: seq<string>)
  datatype Insight = Insight(
    inputSummary: string,
    background: string,
    facts: seq<Fact>,
    perspectives: seq<string>,
    conversationTips: Tips,
    references: seq<Reference>,
    language: string,
    hasUnverifiedSources: bool)

  /** A string field is truthy in JavaScript when present and non-empty. */
  predicate Truthy(o: Option<string>) {
    o.Some? && o.value != ""
  }

  function StringOr(o: Option<string>, default: string): string {
    if Truthy(o) then o.value else default
  }

  function SeqOr<T>(o: Option<seq<T>>): seq<T> {
    if o.Some? then o.value else []
  }

  /** `xs.map(f).filter(Boolean)`: the present results, in input order. */
  function Keep<A, B>(xs: seq<A>, f: A -> Option<B>): (r: seq<B>)
    ensures |r| <= |xs|
    ensures forall y :: y in r ==> exists x :: x in xs && f(x) == Some(y)
  {
    if xs == [] then []
    else (if f(xs[0]).Some? then [f(xs[0]).value] else []) + Keep(xs[1..], f)
  }

  /** Keep works element by element, so it preserves the input order. */
  lemma {:induction false} KeepAppend<A, B>(a: seq<A>, b: seq<A>, f: A -> Option<B>)
    ensures Keep(a + b, f) == Keep(a, f) + Keep(b, f)
  {
    if a == [] {
      assert a + b == b;
    } else {
      var head := if f(a[0]).Some? then [f(a[0]).value] else [];
      assert (a + b)[0] == a[0];
      assert (a + b)[1..] == a[1..] + b;
      KeepAppend(a[1..], b, f);
      calc {
        Keep(a + b, f);
        head + Keep(a[1..] + b, f);
        head + (Keep(a[1..], f) + Keep(b, f));
        (head + Keep(a[1..], f)) + Keep(b, f);
      }
    }
  }

  /** Nothing present is lost. */
  lemma {:induction false} KeepComplete<A, B>(xs: seq<A>, f: A -> Option<B>, i: nat)
    requires i < |xs| && f(xs[i]).Some?
    ensures f(xs[i]).value in Keep(xs, f)
  {
    if i > 0 {
      KeepComplete(xs[1..], f, i - 1);
      assert xs[1..][i - 1] == xs[i];
    }
  }

  lemma KeepCompleteAll<A, B>(xs: seq<A>, f: A -> Option<B>)
    ensures forall i :: 0 <= i < |xs| && f(xs[i]).Some? ==> f(xs[i]).value in Keep(xs, f)
  {
    forall i | 0 <= i < |xs| && f(xs[i]).Some? ensures f(xs[i]).value in Keep(xs, f) {
      KeepComplete(xs, f, i);
    }
  }

  /** `Array.prototype.some`. */
  function AnyOf<T>(xs: seq<T>, p: T -> bool): (r: bool)
    ensures r <==> exists i :: 0 <= i < |xs| && p(xs[i])
  {
    if xs == [] then false
    else if p(xs[0]) then true
    else
      var r := AnyOf(xs[1..], p);
      assert forall i :: 1 <= i < |xs| ==> xs[i] == xs[1..][i - 1];
      r
  }

  /** A fact reaches the user only with a source whose URL is present and trusted. */
  predicate KeepsFact(f: RawFact, hostOf: string -> Option<string>) {
    f.source.Some? && Truthy(f.source.value.url) && IsTrustedDomain(f.source.value.url.value, hostOf)
  }

  predicate KeepsReference(r: RawReference, hostOf: string -> Option<string>) {
    Truthy(r.url) && IsTrustedDomain(r.url.value, hostOf)
  }

  /** One fact of `facts.map(...)`: null when dropped, else the fact with its
      source's fields and a `verified` flag. */
  function CheckFact(f: RawFact, hostOf: string -> Option<string>, probe: string -> ProbeOutcome): (r: Option<Fact>)
    ensures r.Some? <==> KeepsFact(f, hostOf)
    ensures r.Some? ==>
      var s := f.source.value;
      && r.value.claim == f.claim
      && r.value.source.title == s.title && r.value.source.institution == s.institution
      && r.value.source.url == s.url.value
      && VerifyUrl(s.url.value, hostOf, probe).requested
      && r.value.source.verified == VerifyUrl(s.url.value, hostOf, probe).verified
  {
    if f.source.None? || !Truthy(f.source.value.url) then None
    else
      var s := f.source.value;
      if !IsTrustedDomain(s.url.value, hostOf) then None
      else Some(Fact(f.claim, Source(s.title, s.url.value, s.institution, VerifyUrl(s.url.value, hostOf, probe).verified)))
  }

  function CheckReference(x: RawReference, hostOf: string -> Option<string>, probe: string -> ProbeOutcome): (r: Option<Reference>)
    ensures r.Some? <==> KeepsReference(x, hostOf)
    ensures r.Some? ==>
      && r.value.title == x.title && r.value.institution == x.institution
      && r.value.url == x.url.value
      && VerifyUrl(x.url.value, hostOf, probe).requested
      && r.value.verified == VerifyUrl(x.url.value, hostOf, probe).verified
  {
    if !Truthy(x.url) then None
    else if !IsTrustedDomain(x.url.value, hostOf) then None
    else Some(Reference(x.title, x.url.value, x.institution, VerifyUrl(x.url.value, hostOf, probe).verified))
  }

  /** `verifiedFacts.filter(Boolean)`: exactly the checked forms of the facts that
      pass the trust check, and nothing else. */
  function CleanFacts(facts: seq<RawFact>, hostOf: string -> Option<string>, probe: string -> ProbeOutcome): (r: seq<Fact>)
    ensures |r| <= |facts|
    ensures forall g :: g in r ==> exists x :: x in facts && KeepsFact(x, hostOf) && CheckFact(x, hostOf, probe) == Some(g)
    ensures forall i :: 0 <= i < |facts| && KeepsFact(facts[i], hostOf) ==> CheckFact(facts[i], hostOf, probe).value in r
  {
    var f := (x: RawFact) => CheckFact(x, hostOf, probe);
    KeepCompleteAll(facts, f);
    Keep(facts, f)
  }

  /** `verifiedRefs.filter(Boolean)`, the same for references. */
  function CleanReferences(refs: seq<RawReference>, hostOf: string -> Option<string>, probe: string -> ProbeOutcome): (r: seq<Reference>)
    ensures |r| <= |refs|
    ensures forall y :: y in r ==> exists x :: x in refs && KeepsReference(x, hostOf) && CheckReference(x, hostOf, probe) == Some(y)
    ensures forall i :: 0 <= i < |refs| && KeepsReference(refs[i], hostOf) ==> CheckReference(refs[i], hostOf, probe).value in r
  {
    var f := (x: RawReference) => CheckReference(x, hostOf, probe);
    KeepCompleteAll(refs, f);
    Keep(refs, f)
  }

  /** The kept facts keep their input order, duplicates included: cleaning
      distributes over concatenation. */
  lemma CleanFactsAppend(a: seq<RawFact>, b: seq<RawFact>, hostOf: string -> Option<string>, probe: string -> ProbeOutcome)
    ensures CleanFacts(a + b, hostOf, probe) == CleanFacts(a, hostOf, probe) + CleanFacts(b, hostOf, probe)
  {
    KeepAppend(a, b, (x: RawFact) => CheckFact(x, hostOf, probe));
  }

  /** A single fact is kept, in its checked form, exactly when it passes the trust check. */
  lemma CleanFactsSingle(x: RawFact, hostOf: string -> Option<string>, probe: string -> ProbeOutcome)
    ensures CleanFacts([x], hostOf, probe) == if KeepsFact(x, hostOf) then [CheckFact(x, hostOf, probe).value] else []
  {
    assert [x][1..] == [];
  }

  lemma CleanReferencesAppend(a: seq<RawReference>, b: seq<RawReference>, hostOf: string -> Option<string>, probe: string -> ProbeOutcome)
    ensures CleanReferences(a + b, hostOf, probe) == CleanReferences(a, hostOf, probe) + CleanReferences(b, hostOf, probe)
  {
    KeepAppend(a, b, (x: RawReference) => CheckReference(x, hostOf, probe));
  }

  lemma CleanReferencesSingle(x: RawReference, hostOf: string -> Option<string>, probe: string -> ProbeOutcome)
    ensures CleanReferences([x], hostOf, probe) == if KeepsReference(x, hostOf) then [CheckReference(x, hostOf, probe).value] else []
  {
    assert [x][1..] == [];
  }

  /** The post-processing of `analyzeWithGemini` on a parsed payload. */
  function PostProcess(raw: RawInsight, hostOf: string -> Option<string>, probe: string -> ProbeOutcome): (r: Insight)
    ensures forall g :: g in r.facts ==>
      IsTrustedDomain(g.source.url, hostOf) && g.source.verified == VerifyUrl(g.source.url, hostOf, probe).verified
    ensures forall x :: x in r.references ==>
      IsTrustedDomain(x.url, hostOf) && x.verified == VerifyUrl(x.url, hostOf, probe).verified
    ensures r.hasUnverifiedSources <==>
      (exists i :: 0 <= i < |r.facts| && !r.facts[i].source.verified)
      || (exists j :: 0 <= j < |r.references| && !r.references[j].verified)
    ensures r.language != ""
  {
    var facts := CleanFacts(SeqOr(raw.facts), hostOf, probe);
    var refs := CleanReferences(SeqOr(raw.references), hostOf, probe);
    var tips := if raw.conversationTips.Some? then raw.conversationTips.value else RawTips(None, None);
    Insight(
      StringOr(raw.inputSummary, ""),
      StringOr(raw.background, ""),
      facts,
      SeqOr(raw.perspectives),
      Tips(SeqOr(tips.forSelf), SeqOr(tips.forOthers)),
      refs,
      StringOr(raw.language, "ja"),
      AnyOf(facts, (f: Fact) => !f.source.verified) || AnyOf(refs, (x: Reference) => !x.verified))
  }

  /** Missing or falsy fields take their defaults; present ones are kept. */
  lemma DefaultsApplied(raw: RawInsight, hostOf: string -> Option<string>, probe: string -> ProbeOutcome)
    ensures var r := PostProcess(raw, hostOf, probe);
      && (r.inputSummary == if Truthy(raw.inputSummary) then raw.inputSummary.value else "")
      && (r.background == if Truthy(raw.background) then raw.background.value else "")
      && (r.perspectives == if raw.perspectives.Some? then raw.perspectives.value else [])
      && (raw.conversationTips.None? ==> r.conversationTips == Tips([], []))
      && (raw.conversationTips.Some? ==>
            var t := raw.conversationTips.value;
            && r.conversationTips.forSelf == (if t.forSelf.Some? then t.forSelf.value else [])
            && r.conversationTips.forOthers == (if t.forOthers.Some? then t.forOthers.value else []))
      && (raw.facts.Some? ==> r.facts == CleanFacts(raw.facts.value, hostOf, probe))
      && (raw.references.Some? ==> r.references == CleanReferences(raw.references.value, hostOf, probe))
      && (r.language == if Truthy(raw.language) then raw.language.value else "ja")
      && (raw.facts.None? ==> r.facts == [])
      && (raw.references.None? ==> r.references == [])
  {
  }

  /** A kept fact whose probe did not come back `ok` raises the disclaimer flag. */
  lemma {:induction false} UnconfirmedFactRaisesFlag(raw: RawInsight, hostOf: string -> Option<string>, probe: string -> ProbeOutcome, i: nat)
    requires raw.facts.Some? && i < |raw.facts.value| && KeepsFact(raw.facts.value[i], hostOf)
    requires probe(raw.facts.value[i].source.value.url.value) != Responded(true)
    ensures PostProcess(raw, hostOf, probe).hasUnverifiedSources
  {
    var f := (x: RawFact) => CheckFact(x, hostOf, probe);
    KeepComplete(raw.facts.value, f, i);
    var r := PostProcess(raw, hostOf, probe);
    var g := f(raw.facts.value[i]).value;
    var k :| 0 <= k < |r.facts| && r.facts[k] == g;
    assert !r.facts[k].source.verified;
  }

  /** The same for a kept reference. */
  lemma {:induction false} UnconfirmedReferenceRaisesFlag(raw: RawInsight, hostOf: string -> Option<string>, probe: string -> ProbeOutcome, i: nat)
    requires raw.references.Some? && i < |raw.references.value| && KeepsReference(raw.references.value[i], hostOf)
    requires probe(raw.references.value[i].url.value) != Responded(true)
    ensures PostProcess(raw, hostOf, probe).hasUnverifiedSources
  {
    var f := (x: RawReference) => CheckReference(x, hostOf, probe);
    KeepComplete(raw.references.value, f, i);
    var r := PostProcess(raw, hostOf, probe);
    var g := f(raw.references.value[i]).value;
    var k :| 0 <= k < |r.references| && r.references[k] == g;
    assert !r.references[k].verified;
  }

  /** Every kept fact comes from an input fact that passed the trust check. */
  lemma FactsComeFromInput(raw: RawInsight, hostOf: string -> Option<string>, probe: string -> ProbeOutcome, g: Fact)
    requires g in PostProcess(raw, hostOf, probe).facts
    ensures raw.facts.Some?
    ensures exists x :: x in raw.facts.value && KeepsFact(x, hostOf) && CheckFact(x, hostOf, probe) == Some(g)
  {
  }

  /** Why `analyzeWithGemini` throws. Every parse failure becomes the one
      message "Failed to parse Gemini response as JSON". */
  datatype AnalysisError = ModelCallFailed | ResponseNotJson

  /** `analyzeWithGemini(claim, mode)` after the prompt is sent. */
  function AnalyzeWithGemini(
    claim: string, mode: Mode,
    complete: (string, Mode) -> Option<string>,
    parse: string -> Option<RawInsight>,
    hostOf: string -> Option<string>,
    probe: string -> ProbeOutcome): (r: Result<Insight, AnalysisError>)
    ensures complete(claim, mode).None? ==> r == Failure(ModelCallFailed)
    ensures complete(claim, mode).Some? ==>
      (r.Failure? <==> ParseJsonResponse(complete(claim, mode).value, parse).Failure?)
    ensures r.Failure? && complete(claim, mode).Some? ==> r.error == ResponseNotJson
    // A success is the post-processed form of the payload parsed from the model's text.
    ensures r.Success? ==>
      && complete(claim, mode).Some?
      && ParseJsonResponse(complete(claim, mode).value, parse).Success?
      && r.value == PostProcess(ParseJsonResponse(complete(claim, mode).value, parse).value, hostOf, probe)
  {
    match complete(claim, mode)
    case None => Failure(ModelCallFailed)
    case Some(text) =>
      match ParseJsonResponse(text, parse)
      case Failure(_) => Failure(ResponseNotJson)
      case Success(raw) => Success(PostProcess(raw, hostOf, probe))
  }
}

=== FILE: js_text.dfy ===
/**
 * The JavaScript string operations the core relies on, stated over Dafny
 * strings: `String.prototype.trim`, `.length` in UTF-16 code units,
 * `startsWith`, `endsWith`, `indexOf` and `lastIndexOf`.
 */
module JsText {
  import opened Wrappers

  /** ECMAScript WhiteSpace or LineTerminator: what `trim()` strips and `\s` matches. */
  predicate IsSpace(c: char) {
    || c == '\t' || c == '\n' || c == '\U{000B}' || c == '\U{000C}' || c == '\r'
    || c == ' ' || c == '\U{00A0}' || c == '\U{1680}'
    || ('\U{2000}' <= c <= '\U{200A}')
    || c == '\U{2028}' || c == '\U{2029}' || c == '\U{202F}' || c == '\U{205F}'
    || c == '\U{3000}' || c == '\U{FEFF}'
  }

  predicate AllSpace(s: string) {
    forall k :: 0 <= k < |s| ==> IsSpace(s[k])
  }

  /** Number of whitespace characters at the front of `s`. */
  function LeadingSpaces(s: string): (n: nat)
    ensures n <= |s|
    ensures AllSpace(s[..n])
    ensures n < |s| ==> !IsSpace(s[n])
  {
    if s == [] || !IsSpace(s[0]) then 0
    else
      var m := LeadingSpaces(s[1..]);
      assert s[1..][..m] == s[1..m + 1];
      1 + m
  }

  /** Number of whitespace characters at the back of `s`. */
  function TrailingSpaces(s: string): (n: nat)
    ensures n <= |s|
    ensures AllSpace(s[|s| - n..])
    ensures n < |s| ==> !IsSpace(s[|s| - n - 1])
  {
    if s == [] || !IsSpace(s[|s| - 1]) then 0
    else
      var m := TrailingSpaces(s[..|s| - 1]);
      assert s[..|s| - 1][|s| - 1 - m..] == s[|s| - 1 - m..|s| - 1];
      1 + m
  }

  /** `s.trim()`: the slice of `s` left after removing leading and trailing whitespace. */
  function Trim(s: string): (r: string)
    ensures |r| <= |s|
    ensures LeadingSpaces(s) + |r| <= |s| && r == s[LeadingSpaces(s)..LeadingSpaces(s) + |r|]
    ensures AllSpace(s[LeadingSpaces(s) + |r|..])
    ensures r != [] ==> !IsSpace(r[0]) && !IsSpace(r[|r| - 1])
    ensures r == [] <==> AllSpace(s)
  {
    var n := LeadingSpaces(s);
    var t := s[n..];
    var r := s[n..n + |t| - TrailingSpaces(t)];
    TrimShape(s, t, r);
    r
  }

  lemma TrimShape(s: string, t: string, r: string)
    requires t == s[LeadingSpaces(s)..]
    requires r == s[LeadingSpaces(s)..LeadingSpaces(s) + |t| - TrailingSpaces(t)]
    ensures AllSpace(s[LeadingSpaces(s) + |r|..])
    ensures r != [] ==> !IsSpace(r[0]) && !IsSpace(r[|r| - 1])
    ensures r == [] <==> AllSpace(s)
  {
    var n := LeadingSpaces(s);
    var m := TrailingSpaces(t);
    assert s[n + |r|..] == t[|t| - m..];
    AllSpaceLeading(s);
    if r == [] {
      assert t[|t| - m..] == t;
      AllSpaceLeading(t);
      NothingLeftToStrip(s);
    } else {
      assert r[|r| - 1] == t[|t| - m - 1];
    }
  }

  /** A string is all whitespace exactly when its leading run covers it. */
  lemma AllSpaceLeading(s: string)
    ensures AllSpace(s) <==> LeadingSpaces(s) == |s|
  {
    assert s[..|s|] == s;
  }

  /** After the leading run, no whitespace is left at the front. */
  lemma NothingLeftToStrip(s: string)
    ensures LeadingSpaces(s[LeadingSpaces(s)..]) == 0
  {
    var n := LeadingSpaces(s);
    if n < |s| {
      assert s[n..][0] == s[n];
    }
  }

  /** Trimming is idempotent: a trimmed string has nothing left to strip. */
  lemma TrimIdempotent(s: string)
    ensures Trim(Trim(s)) == Trim(s)
  {
    var r := Trim(s);
    if r != [] {
      assert LeadingSpaces(r) == 0;
      assert TrailingSpaces(r) == 0;
    }
  }

  /** The JavaScript `.length` of a string: its number of UTF-16 code units. */
  function Utf16Length(s: string): (n: nat)
    ensures |s| <= n <= 2 * |s|
  {
    if s == [] then 0
    else (if s[0] as int > 0xFFFF then 2 else 1) + Utf16Length(s[1..])
  }

  /** Text in the Basic Multilingual Plane has one code unit per character. */
  lemma {:induction false} Utf16LengthBmp(s: string)
    requires forall k :: 0 <= k < |s| ==> s[k] as int <= 0xFFFF
    ensures Utf16Length(s) == |s|
  {
    if s != [] {
      Utf16LengthBmp(s[1..]);
    }
  }

  /** A character above U+FFFF is a surrogate pair: two code units each. */
  lemma {:induction false} Utf16LengthAstral(s: string)
    requires forall k :: 0 <= k < |s| ==> s[k] as int > 0xFFFF
    ensures Utf16Length(s) == 2 * |s|
  {
    if s != [] {
      Utf16LengthAstral(s[1..]);
    }
  }

  /** Code units add up over concatenation. */
  lemma {:induction false} Utf16LengthAppend(a: string, b: string)
    ensures Utf16Length(a + b) == Utf16Length(a) + Utf16Length(b)
  {
    if a != [] {
      assert (a + b)[1..] == a[1..] + b;
      Utf16LengthAppend(a[1..], b);
    } else {
      assert a + b == b;
    }
  }

  predicate StartsWith(s: string, prefix: string) {
    |prefix| <= |s| && s[..|prefix|] == prefix
  }

  predicate EndsWith(s: string, suffix: string) {
    |suffix| <= |s| && s[|s| - |suffix|..] == suffix
  }

  /** `pat` occurs in `s` starting at index `i`. */
  predicate OccursAt(s: string, pat: string, i: nat) {
    i + |pat| <= |s| && s[i..i + |pat|] == pat
  }

  /** `s.indexOf(pat, from)`: the first occurrence of `pat` at or after `from`. */
  function IndexOf(s: string, pat: string, from: nat): (r: Option<nat>)
    ensures r.Some? ==> from <= r.value && OccursAt(s, pat, r.value)
    ensures forall i: nat :: from <= i && (r.None? || i < r.value) ==> !OccursAt(s, pat, i)
    decreases |s| - from
  {
    if from + |pat| > |s| then None
    else if OccursAt(s, pat, from) then Some(from)
    else IndexOf(s, pat, from + 1)
  }

  /** A first occurrence is found by `IndexOf` whatever lies after it. */
  lemma IndexOfFirst(s: string, pat: string, from: nat, k: nat)
    requires from <= k && OccursAt(s, pat, k)
    requires forall i: nat :: from <= i < k ==> !OccursAt(s, pat, i)
    ensures IndexOf(s, pat, from) == Some(k)
  {
  }

  /** `s.indexOf(c, from)` for a single character. */
  function IndexOfChar(s: string, c: char, from: nat := 0): (r: Option<nat>)
    ensures r.Some? ==> from <= r.value < |s| && s[r.value] == c
    ensures forall i :: from <= i < |s| && (r.None? || i < r.value) ==> s[i] != c
    decreases |s| - from
  {
    if from >= |s| then None
    else if s[from] == c then Some(from)
    else IndexOfChar(s, c, from + 1)
  }

  /** `s.lastIndexOf(c)`: the last index holding `c`. */
  function LastIndexOfChar(s: string, c: char): (r: Option<nat>)
    ensures r.Some? ==> r.value < |s| && s[r.value] == c
    ensures forall i :: 0 <= i < |s| && s[i] == c ==> r.Some? && i <= r.value
  {
    if s == [] then None
    else if s[|s| - 1] == c then Some(|s| - 1)
    else LastIndexOfChar(s[..|s| - 1], c)
  }

  /** Joins `parts` with `sep` between consecutive parts, as `Array.prototype.join`. */
  function Join(parts: seq<string>, sep: string): string {
    if parts == [] then ""
    else if |parts| == 1 then parts[0]
    else Join(parts[..|parts| - 1], sep) + sep + parts[|parts| - 1]
  }

  /** Appending a part adds the separator and the part. */
  lemma JoinSnoc(parts: seq<string>, p: string, sep: string)
    requires parts != []
    ensures Join(parts + [p], sep) == Join(parts, sep) + sep + p
  {
    assert (parts + [p])[..|parts|] == parts;
  }

  /** Occurrences of the character `c` in `s`. */
  function CountChar(s: string, c: char): nat {
    if s == [] then 0 else (if s[0] == c then 1 else 0) + CountChar(s[1..], c)
  }

  lemma {:induction false} CountCharAppend(a: string, b: string, c: char)
    ensures CountChar(a + b, c) == CountChar(a, c) + CountChar(b, c)
  {
    if a != [] {
      assert (a + b)[1..] == a[1..] + b;
      assert (a + b)[0] == a[0];
      CountCharAppend(a[1..], b, c);
    } else {
      assert a + b == b;
    }
  }

  lemma {:induction false} CountCharAbsent(s: string, c: char)
    requires forall k :: 0 <= k < |s| ==> s[k] != c
    ensures CountChar(s, c) == 0
  {
    if s != [] {
      CountCharAbsent(s[1..], c);
    }
  }

  /** Joining parts that contain no `c` with the one-character separator `c`
      puts exactly one `c` between each two consecutive parts. */
  lemma {:induction false} JoinCount(parts: seq<string>, c: char)
    requires parts != []
    requires forall i, k :: 0 <= i < |parts| && 0 <= k < |parts[i]| ==> parts[i][k] != c
    ensures CountChar(Join(parts, [c]), c) == |parts| - 1
  {
    if |parts| == 1 {
      CountCharAbsent(parts[0], c);
    } else {
      var init := parts[..|parts| - 1];
      JoinCount(init, c);
      CountCharAppend(Join(init, [c]) + [c], parts[|parts| - 1], c);
      CountCharAppend(Join(init, [c]), [c], c);
      CountCharAbsent(parts[|parts| - 1], c);
      assert CountChar([c], c) == 1;
    }
  }
}

=== FILE: middleware.dfy ===
/**
 * middleware.ts: every request either passes or is redirected to /login. A
 * fixed set of public paths passes without a session; any other path needs a
 * non-empty `pause_user_id` cookie, whose content is not checked.
 */
module Middleware {
  import opened Wrappers
  import opened JsText

  datatype Outcome = Next | RedirectToLogin

  /** The login page, the auth API, framework assets and icons. */
  predicate IsPublicPath(path: string) {
    || path == "/login"
    || StartsWith(path, "/api/auth")
    || StartsWith(path, "/_next")
    || StartsWith(path, "/icon")
    || path == "/favicon.ico"
  }

  /** `middleware(req)`: `cookie` is the value of `pause_user_id`, None when unset. */
  function Gate(path: string, cookie: Option<string>): (r: Outcome)
    ensures r == RedirectToLogin <==> !IsPublicPath(path) && (cookie.None? || cookie.value == "")
  {
    if IsPublicPath(path) then Next
    else if cookie.None? || cookie.value == "" then RedirectToLogin
    else Next
  }

  /** Public paths pass whatever the cookie. */
  lemma PublicPathsPass(cookie: Option<string>)
    ensures Gate("/login", cookie) == Next
    ensures Gate("/favicon.ico", cookie) == Next
    ensures Gate("/api/auth/login", cookie) == Next
    ensures Gate("/_next/static/app.js", cookie) == Next
    ensures Gate("/icon.png", cookie) == Next
  {
    assert StartsWith("/api/auth/login", "/api/auth");
    assert StartsWith("/_next/static/app.js", "/_next");
    assert StartsWith("/icon.png", "/icon");
  }

  /** The prefix checks admit look-alikes; the exact checks do not. */
  lemma PrefixLookAlikes()
    ensures Gate("/iconx", None) == Next
    ensures Gate("/api/authority", None) == Next
    ensures Gate("/login/", None) == RedirectToLogin
    ensures Gate("/favicon.ico.bak", None) == RedirectToLogin
  {
    assert StartsWith("/iconx", "/icon");
    assert StartsWith("/api/authority", "/api/auth");
    DiffersAt("/login/", "/api/auth", 1);
    DiffersAt("/login/", "/_next", 1);
    DiffersAt("/login/", "/icon", 1);
    DiffersAt("/favicon.ico.bak", "/api/auth", 1);
    DiffersAt("/favicon.ico.bak", "/_next", 1);
    DiffersAt("/favicon.ico.bak", "/icon", 1);
  }

  lemma DiffersAt(s: string, prefix: string, k: nat)
    requires k < |s| && k < |prefix| && s[k] != prefix[k]
    ensures !StartsWith(s, prefix)
  {
    if |prefix| <= |s| {
      assert s[..|prefix|][k] == s[k];
    }
  }

  /** Any non-empty cookie lets a private path through, its content unchecked. */
  lemma AnyCookiePasses(path: string, value: string)
    requires value != ""
    ensures Gate(path, Some(value)) == Next
  {
  }

  /** The gate depends on the cookie only through its presence. */
  lemma OnlyPresenceMatters(path: string, a: string, b: string)
    requires a != "" && b != ""
    ensures Gate(path, Some(a)) == Gate(path, Some(b))
    ensures Gate(path, Some("")) == Gate(path, None)
  {
  }
}

=== FILE: rate_limit.dfy ===
/**
 * The daily quota of lib/rateLimit.ts. The `rate_limits` table is a sequence
 * of rows `(ipHash, count, windowStart)`; a row is live for a caller when its
 * window started no earlier than 24 hours before `now` (an inclusive bound).
 * Times are milliseconds; `now` is a parameter. The salted SHA-256 of the
 * caller's address is an opaque key.
 */
module RateLimit {
  import opened Wrappers

  const DailyLimit: int := 400
  const WindowMs: int := 24 * 60 * 60 * 1000

  datatype Row = Row(ipHash: string, count: int, windowStart: int)

  /** `{ allowed, remaining }` as `checkRateLimit` returns it. */
  datatype Admission = Admission(allowed: bool, remaining: int)

  /** The table after one call, and what that call answered. */
  datatype Step = Step(admission: Admission, rows: seq<Row>)

  /** `eq(ipHash, hash)` and `gte(windowStart, now - WINDOW_MS)`. */
  predicate IsLive(r: Row, hash: string, now: int) {
    r.ipHash == hash && r.windowStart >= now - WindowMs
  }

  /** Every count is at least 1 (a row is created at 1, and an update only ever
      writes a live count plus one, though it may lower an expired row's count);
      two rows of one caller are created more than a window apart, the older one
      first. Nothing here mentions a clock. */
  ghost predicate RowsValid(rows: seq<Row>) {
    && (forall i :: 0 <= i < |rows| ==> rows[i].count >= 1)
    && (forall i, j :: 0 <= i < j < |rows| && rows[i].ipHash == rows[j].ipHash ==>
          rows[i].windowStart + WindowMs < rows[j].windowStart)
  }

  /** No row's window starts after `now`. */
  ghost predicate NotAfter(rows: seq<Row>, now: int) {
    forall i :: 0 <= i < |rows| ==> rows[i].windowStart <= now
  }

  /** The row the `select ... limit(1)` returns: the first live row of the caller
      at or after `from`. */
  function FindLive(rows: seq<Row>, hash: string, now: int, from: nat := 0): (r: Option<nat>)
    ensures r.Some? ==> from <= r.value < |rows| && IsLive(rows[r.value], hash, now)
    ensures forall i :: from <= i < |rows| && (r.None? || i < r.value) ==> !IsLive(rows[i], hash, now)
    decreases |rows| - from
  {
    if from >= |rows| then None
    else if IsLive(rows[from], hash, now) then Some(from)
    else FindLive(rows, hash, now, from + 1)
  }

  function Max(a: int, b: int): int { if a >= b then a else b }

  /** `getRemainingCount`: the full quota without a live row, else what is left of it. */
  function RemainingCount(rows: seq<Row>, hash: string, now: int): (n: int)
    ensures 0 <= n
    ensures RowsValid(rows) ==> n <= DailyLimit
    ensures FindLive(rows, hash, now).None? ==> n == DailyLimit
    ensures RowsValid(rows) && FindLive(rows, hash, now).Some? ==> n < DailyLimit
  {
    match FindLive(rows, hash, now)
    case None => DailyLimit
    case Some(i) => Max(0, DailyLimit - rows[i].count)
  }

  /** `update ... set count = c where ipHash = hash`: every row of the caller,
      live or expired, gets the new count. */
  function SetCount(rows: seq<Row>, hash: string, c: int): (r: seq<Row>)
    ensures |r| == |rows|
    ensures forall i :: 0 <= i < |rows| ==> r[i] == Rewrite(rows[i], hash, c)
  {
    seq(|rows|, i requires 0 <= i < |rows| => Rewrite(rows[i], hash, c))
  }

  function Rewrite(r: Row, hash: string, c: int): Row {
    if r.ipHash == hash then r.(count := c) else r
  }

  /** One `checkRateLimit` call on the table `rows` at time `now`. */
  function Admit(rows: seq<Row>, hash: string, now: int): (s: Step)
    // The answer: admitted exactly when there is no live row or its count is under the limit.
    ensures s.admission.allowed <==>
      FindLive(rows, hash, now).None? || rows[FindLive(rows, hash, now).value].count < DailyLimit
    ensures !s.admission.allowed ==> s.admission.remaining == 0 && s.rows == rows
    ensures RowsValid(rows) ==> 0 <= s.admission.remaining < DailyLimit
    // A new window reports the quota minus this call.
    ensures FindLive(rows, hash, now).None? ==> s.admission == Admission(true, DailyLimit - 1)
    // An increment reports what is left after it, and every row of the caller
    // now holds the live count plus one.
    ensures FindLive(rows, hash, now).Some? && s.admission.allowed ==>
      var c := rows[FindLive(rows, hash, now).value].count;
      && s.admission.remaining == DailyLimit - c - 1
      && |s.rows| == |rows|
      && forall i :: 0 <= i < |rows| && rows[i].ipHash == hash ==> s.rows[i].count == c + 1
    // Append-only: old rows keep their caller and window, at most one row is added.
    ensures |rows| <= |s.rows| <= |rows| + 1
    ensures forall i :: 0 <= i < |rows| ==>
      s.rows[i].ipHash == rows[i].ipHash && s.rows[i].windowStart == rows[i].windowStart
    ensures |s.rows| == |rows| + 1 ==> s.rows[|rows|] == Row(hash, 1, now)
    // Other callers' rows are untouched.
    ensures forall i :: 0 <= i < |rows| && rows[i].ipHash != hash ==> s.rows[i] == rows[i]
    ensures RowsValid(rows) ==> RowsValid(s.rows)
  {
    match FindLive(rows, hash, now)
    case None => Step(Admission(true, DailyLimit - 1), rows + [Row(hash, 1, now)])
    case Some(i) =>
      var record := rows[i];
      if record.count >= DailyLimit then Step(Admission(false, 0), rows)
      else Step(Admission(true, DailyLimit - record.count - 1), SetCount(rows, hash, record.count + 1))
  }

  /** Rewriting counts changes no row's liveness, so the same row is found. */
  lemma FindLiveSetCount(rows: seq<Row>, hash: string, now: int, c: int)
    ensures FindLive(SetCount(rows, hash, c), hash, now) == FindLive(rows, hash, now)
  {
    var r := SetCount(rows, hash, c);
    assert forall i :: 0 <= i < |rows| ==> (IsLive(r[i], hash, now) <==> IsLive(rows[i], hash, now));
    var a, b := FindLive(r, hash, now), FindLive(rows, hash, now);
    if a.Some? && b.Some? {
      assert !(a.value < b.value) && !(b.value < a.value);
    }
  }

  /** What an admission reports as remaining is what `getRemainingCount` reports
      right after it, in every case. */
  lemma RemainingAfterAdmit(rows: seq<Row>, hash: string, now: int)
    ensures RemainingCount(Admit(rows, hash, now).rows, hash, now) == Admit(rows, hash, now).admission.remaining
  {
    var s := Admit(rows, hash, now);
    match FindLive(rows, hash, now)
    case None =>
      assert FindLive(s.rows, hash, now) == Some(|rows|);
    case Some(i) =>
      if rows[i].count < DailyLimit {
        FindLiveSetCount(rows, hash, now, rows[i].count + 1);
      }
  }

  /** `getRemainingCount` reads `max(0, 400 - count)` off the caller's live row,
      whichever row that is: on a valid table it is the only one. */
  lemma RemainingOfAnyLiveRow(rows: seq<Row>, hash: string, now: int, i: nat)
    requires RowsValid(rows) && NotAfter(rows, now)
    requires i < |rows| && IsLive(rows[i], hash, now)
    ensures RemainingCount(rows, hash, now) == Max(0, DailyLimit - rows[i].count)
  {
    var j := FindLive(rows, hash, now);
    assert j.Some?;
    AtMostOneLive(rows, hash, now, i, j.value);
  }

  /** At most one live row per caller, once the clock is past every window start. */
  lemma AtMostOneLive(rows: seq<Row>, hash: string, now: int, i: nat, j: nat)
    requires RowsValid(rows) && NotAfter(rows, now)
    requires i < |rows| && j < |rows|
    requires IsLive(rows[i], hash, now) && IsLive(rows[j], hash, now)
    ensures i == j
  {
  }

  /** Every row of a caller except the newest has expired by any time past
      all window starts: the table needs no deletion to stay unambiguous. */
  lemma OlderRowsExpired(rows: seq<Row>, now: int, i: nat, j: nat)
    requires RowsValid(rows) && NotAfter(rows, now)
    requires i < j < |rows| && rows[i].ipHash == rows[j].ipHash
    ensures !IsLive(rows[i], rows[i].ipHash, now)
  {
    assert rows[i].windowStart + WindowMs < rows[j].windowStart;
  }

  /** With a clock that never goes back, no call creates a row from the future. */
  lemma AdmitKeepsNotAfter(rows: seq<Row>, hash: string, now: int, later: int)
    requires NotAfter(rows, now) && now <= later
    ensures NotAfter(Admit(rows, hash, now).rows, later)
  {
  }

  /** A window that started exactly 24 hours ago still counts; one millisecond
      later the caller has the full quota again. */
  lemma WindowBoundaryInclusive(hash: string, now: int)
    ensures RemainingCount([Row(hash, 5, now - WindowMs)], hash, now) == DailyLimit - 5
    ensures RemainingCount([Row(hash, 5, now - WindowMs)], hash, now + 1) == DailyLimit
  {
    assert FindLive([Row(hash, 5, now - WindowMs)], hash, now) == Some(0);
    assert FindLive([Row(hash, 5, now - WindowMs)], hash, now + 1) == None;
  }

  /** Once every row of the caller has expired, the next call opens a new window. */
  lemma ExpiredWindowAdmits(rows: seq<Row>, hash: string, now: int)
    requires forall i :: 0 <= i < |rows| && rows[i].ipHash == hash ==> rows[i].windowStart < now - WindowMs
    ensures Admit(rows, hash, now) == Step(Admission(true, DailyLimit - 1), rows + [Row(hash, 1, now)])
  {
  }

  /** The answers and the final table after `n` consecutive calls at one time. */
  datatype Trace = Trace(admissions: seq<Admission>, rows: seq<Row>)

  function Run(rows: seq<Row>, hash: string, now: int, n: nat): (t: Trace)
    ensures |t.admissions| == n
  {
    if n == 0 then Trace([], rows)
    else
      var t := Run(rows, hash, now, n - 1);
      var s := Admit(t.rows, hash, now);
      Trace(t.admissions + [s.admission], s.rows)
  }

  /** One more call at the same time on a caller's single live row. */
  lemma AdmitSingle(hash: string, now: int, c: int)
    requires 1 <= c < DailyLimit
    ensures Admit([Row(hash, c, now)], hash, now) == Step(Admission(true, DailyLimit - 1 - c), [Row(hash, c + 1, now)])
  {
    assert FindLive([Row(hash, c, now)], hash, now) == Some(0);
    assert SetCount([Row(hash, c, now)], hash, c + 1) == [Row(hash, c + 1, now)];
  }

  /** From an empty table, the first `n <= 400` calls are admitted with
      399, 398, ... remaining, and leave one row counting `n`. */
  lemma {:induction false} FreshRun(hash: string, now: int, n: nat)
    requires 1 <= n <= DailyLimit
    ensures Run([], hash, now, n).rows == [Row(hash, n, now)]
    ensures forall k :: 0 <= k < n ==> Run([], hash, now, n).admissions[k] == Admission(true, DailyLimit - 1 - k)
  {
    if n == 1 {
      assert Run([], hash, now, 0) == Trace([], []);
    } else {
      FreshRun(hash, now, n - 1);
      var t := Run([], hash, now, n - 1);
      AdmitSingle(hash, now, n - 1);
      var s := Admit(t.rows, hash, now);
      assert Run([], hash, now, n) == Trace(t.admissions + [s.admission], s.rows);
    }
  }

  /** The daily quota: 400 calls in one window are admitted, down to 0 remaining,
      and the 401st is rejected. */
  lemma DailyQuota(hash: string, now: int)
    ensures var t := Run([], hash, now, DailyLimit + 1);
      forall k :: 0 <= k < DailyLimit ==> t.admissions[k] == Admission(true, DailyLimit - 1 - k)
    ensures Run([], hash, now, DailyLimit + 1).admissions[DailyLimit] == Admission(false, 0)
  {
    FreshRun(hash, now, DailyLimit);
    assert FindLive([Row(hash, DailyLimit, now)], hash, now) == Some(0);
  }

  /** The `rate_limits` table and the two operations on it. */
  class RateLimiter {
    var rows: seq<Row>

    ghost predicate Valid()
      reads this
    {
      RowsValid(rows)
    }

    constructor ()
      ensures Valid() && rows == []
    {
      rows := [];
    }

    /** The `select ... where ipHash = hash and windowStart >= now - WINDOW_MS limit 1`. */
    method SelectLive(hash: string, now: int) returns (found: Option<nat>)
      ensures found == FindLive(rows, hash, now)
    {
      var i := 0;
      while i < |rows|
        invariant 0 <= i <= |rows|
        invariant FindLive(rows, hash, now) == FindLive(rows, hash, now, i)
      {
        if IsLive(rows[i], hash, now) {
          return Some(i);
        }
        i := i + 1;
      }
      return None;
    }

    /** `getRemainingCount`: reads the table and changes nothing. */
    method GetRemainingCount(hash: string, now: int) returns (n: int)
      ensures n == RemainingCount(rows, hash, now)
      ensures Valid() ==> 0 <= n <= DailyLimit
    {
      var found := SelectLive(hash, now);
      match found
      case None => n := DailyLimit;
      case Some(i) => n := Max(0, DailyLimit - rows[i].count);
    }

    /** `checkRateLimit`: insert a fresh window, reject at the limit, or increment. */
    method CheckRateLimit(hash: string, now: int) returns (allowed: bool, remaining: int)
      requires Valid()
      modifies this
      ensures Valid()
      ensures Step(Admission(allowed, remaining), rows) == Admit(old(rows), hash, now)
    {
      var found := SelectLive(hash, now);
      if found.None? {
        rows := rows + [Row(hash, 1, now)];
        return true, DailyLimit - 1;
      }
      var record := rows[found.value];
      if record.count >= DailyLimit {
        return false, 0;
      }
      var updated: seq<Row> := [];
      var k := 0;
      while k < |rows|
        invariant 0 <= k <= |rows| && |updated| == k
        invariant forall j :: 0 <= j < k ==> updated[j] == Rewrite(rows[j], hash, record.count + 1)
      {
        updated := updated + [Rewrite(rows[k], hash, record.count + 1)];
        k := k + 1;
      }
      rows := updated;
      return true, DailyLimit - record.count - 1;
    }
  }
}

=== FILE: targets.dfy ===
/**
 * app/api/targets/route.ts: creating a tracked person ("target") for the
 * signed-in user, and listing that user's targets, newest update first, each
 * with the time of its latest analysis. The user id comes from the session
 * cookie (None when absent or not a number); timestamps are milliseconds.
 */
module Targets {
  import opened Wrappers
  import opened JsText

  datatype Target = Target(
    id: nat, userId: int, nickname: string,
    ageGroup: Option<string>, lifeContext: Option<string>, values: Option<string>,
    infoSources: Option<string>, relationship: Option<string>, dialoguePattern: Option<string>,
    createdAt: int, updatedAt: int)

  /** A `dialogue_history` row as far as the listing reads it. */
  datatype HistoryRow = HistoryRow(id: nat, targetId: nat, claim: string, createdAt: int)

  /** The create body; None for a field that is absent. */
  datatype CreateBody = CreateBody(
    nickname: Option<string>,
    ageGroup: Option<string>, lifeContext: Option<string>, values: Option<string>,
    infoSources: Option<string>, relationship: Option<string>, dialoguePattern: Option<string>)

  /** The columns the listing selects, plus `lastAnalyzedAt`. */
  datatype TargetSummary = TargetSummary(
    id: nat, userId: int, nickname: string, ageGroup: Option<string>, relationship: Option<string>,
    createdAt: int, updatedAt: int, lastAnalyzedAt: Option<int>)

  datatype CreateResponse = CreateResponse(status: int, target: Option<Target>, error: Option<string>)

  datatype ListResponse = ListUnauthorized | Listed(targets: seq<TargetSummary>)

  const UnauthorizedMessage: string := "Unauthorized"
  const InvalidRequestMessage: string := "Invalid request"
  const NicknameMessage: string := "ニックネームを入力してください"

  /** `if (!userId)`: no session, and also the falsy id 0, are unauthorised. */
  predicate Authorized(userId: Option<int>) {
    userId.Some? && userId.value != 0
  }

  /** `field?.trim() || null`. */
  function Normalize(field: Option<string>): (r: Option<string>)
    ensures r.None? <==> field.None? || AllSpace(field.value)
    ensures r.Some? ==> r.value == Trim(field.value) && r.value != "" && Trim(r.value) == r.value
  {
    match field
    case None => None
    case Some(s) =>
      TrimIdempotent(s);
      if Trim(s) == "" then None else Some(Trim(s))
  }

  predicate NicknameGiven(body: CreateBody) {
    body.nickname.Some? && Trim(body.nickname.value) != ""
  }

  /** The row `insert ... returning()` gives back. */
  function NewTarget(id: nat, userId: int, body: CreateBody, now: int): (t: Target)
    requires NicknameGiven(body)
  {
    Target(id, userId, Trim(body.nickname.value),
      Normalize(body.ageGroup), Normalize(body.lifeContext), Normalize(body.values),
      Normalize(body.infoSources), Normalize(body.relationship), Normalize(body.dialoguePattern),
      now, now)
  }

  /** The stored row: the caller's id, the trimmed nickname, and each optional
      field trimmed, or null when absent or blank. */
  lemma StoredFieldsNormalised(id: nat, userId: int, body: CreateBody, now: int)
    requires NicknameGiven(body)
    ensures var t := NewTarget(id, userId, body, now);
      && t.id == id && t.userId == userId && t.createdAt == now && t.updatedAt == now
      && t.nickname == Trim(body.nickname.value) && t.nickname != "" && Trim(t.nickname) == t.nickname
      && (t.ageGroup.None? <==> body.ageGroup.None? || AllSpace(body.ageGroup.value))
      && (t.ageGroup.Some? ==> t.ageGroup.value == Trim(body.ageGroup.value))
      && (t.lifeContext.None? <==> body.lifeContext.None? || AllSpace(body.lifeContext.value))
      && (t.lifeContext.Some? ==> t.lifeContext.value == Trim(body.lifeContext.value))
      && (t.values.None? <==> body.values.None? || AllSpace(body.values.value))
      && (t.values.Some? ==> t.values.value == Trim(body.values.value))
      && (t.infoSources.None? <==> body.infoSources.None? || AllSpace(body.infoSources.value))
      && (t.infoSources.Some? ==> t.infoSources.value == Trim(body.infoSources.value))
      && (t.relationship.None? <==> body.relationship.None? || AllSpace(body.relationship.value))
      && (t.relationship.Some? ==> t.relationship.value == Trim(body.relationship.value))
      && (t.dialoguePattern.None? <==> body.dialoguePattern.None? || AllSpace(body.dialoguePattern.value))
      && (t.dialoguePattern.Some? ==> t.dialoguePattern.value == Trim(body.dialoguePattern.value))
  {
    TrimIdempotent(body.nickname.value);
  }

  /** The targets owned by `userId`, in table order. */
  function OwnedBy(ts: seq<Target>, userId: int): (r: seq<Target>)
    ensures forall t :: t in r ==> t in ts && t.userId == userId
    ensures forall t :: t in ts && t.userId == userId ==> t in r
    ensures forall t :: multiset(r)[t] == if t.userId == userId then multiset(ts)[t] else 0
  {
    if ts == [] then []
    else
      var rest := OwnedBy(ts[1..], userId);
      assert ts == [ts[0]] + ts[1..];
      if ts[0].userId == userId then [ts[0]] + rest else rest
  }

  /** `SELECT MAX(createdAt) FROM dialogue_history WHERE targetId = id`: null without rows. */
  function LastAnalyzedAt(history: seq<HistoryRow>, id: nat): (r: Option<int>)
    ensures r.None? <==> forall k :: 0 <= k < |history| ==> history[k].targetId != id
    ensures r.Some? ==> exists k :: 0 <= k < |history| && history[k].targetId == id && history[k].createdAt == r.value
    ensures r.Some? ==> forall k :: 0 <= k < |history| && history[k].targetId == id ==> history[k].createdAt <= r.value
  {
    if history == [] then None
    else
      var last := history[|history| - 1];
      var init := history[..|history| - 1];
      var m := LastAnalyzedAt(init, id);
      assert forall k :: 0 <= k < |init| ==> init[k] == history[k];
      if last.targetId != id then m
      else if m.Some? && m.value >= last.createdAt then m
      else Some(last.createdAt)
  }

  function Summarize(t: Target, history: seq<HistoryRow>): TargetSummary {
    TargetSummary(t.id, t.userId, t.nickname, t.ageGroup, t.relationship, t.createdAt, t.updatedAt,
      LastAnalyzedAt(history, t.id))
  }

  function Summaries(ts: seq<Target>, history: seq<HistoryRow>): (r: seq<TargetSummary>)
    ensures |r| == |ts|
    ensures forall k :: 0 <= k < |ts| ==> r[k] == Summarize(ts[k], history)
  {
    if ts == [] then [] else [Summarize(ts[0], history)] + Summaries(ts[1..], history)
  }

  predicate NewestFirst(s: seq<TargetSummary>) {
    forall i, j :: 0 <= i < j < |s| ==> s[i].updatedAt >= s[j].updatedAt
  }

  /** Places `x` before the first summary updated no later than it. */
  function InsertByUpdate(x: TargetSummary, s: seq<TargetSummary>): (r: seq<TargetSummary>)
    requires NewestFirst(s)
    ensures NewestFirst(r)
    ensures multiset(r) == multiset(s) + multiset{x}
  {
    if s == [] then [x]
    else if x.updatedAt >= s[0].updatedAt then
      ConsNewestFirst(x, s);
      [x] + s
    else
      NewestFirstTail(s);
      var rest := InsertByUpdate(x, s[1..]);
      assert s == [s[0]] + s[1..];
      assert multiset([s[0]] + rest) == multiset{s[0]} + multiset(s[1..]) + multiset{x};
      ConsNewestFirst(s[0], rest);
      [s[0]] + rest
  }

  lemma NewestFirstTail(s: seq<TargetSummary>)
    requires NewestFirst(s) && s != []
    ensures NewestFirst(s[1..])
  {
    forall i, j | 0 <= i < j < |s| - 1 ensures s[1..][i].updatedAt >= s[1..][j].updatedAt {
      assert s[1..][i] == s[i + 1] && s[1..][j] == s[j + 1];
    }
  }

  /** A summary no older than the head of a newest-first list can go in front. */
  lemma ConsNewestFirst(h: TargetSummary, s: seq<TargetSummary>)
    requires NewestFirst(s) && s != [] && h.updatedAt >= s[0].updatedAt
    ensures NewestFirst([h] + s)
  {
    var r := [h] + s;
    forall i, j | 0 <= i < j < |r| ensures r[i].updatedAt >= r[j].updatedAt {
      if i == 0 {
        assert r[j] == s[j - 1];
      } else {
        assert r[i] == s[i - 1] && r[j] == s[j - 1];
      }
    }
  }

  /** `orderBy(desc(updatedAt))`: newest update first, a permutation of the input. */
  function SortByUpdateDesc(s: seq<TargetSummary>): (r: seq<TargetSummary>)
    ensures NewestFirst(r)
    ensures multiset(r) == multiset(s)
  {
    if s == [] then []
    else
      assert s == [s[0]] + s[1..];
      InsertByUpdate(s[0], SortByUpdateDesc(s[1..]))
  }

  /** The `GET` handler over the two tables. */
  function ListTargets(userId: Option<int>, ts: seq<Target>, history: seq<HistoryRow>): (r: ListResponse)
    ensures r.ListUnauthorized? <==> !Authorized(userId)
    ensures r.Listed? ==> NewestFirst(r.targets)
    ensures r.Listed? ==> multiset(r.targets) == multiset(Summaries(OwnedBy(ts, userId.value), history))
  {
    if !Authorized(userId) then ListUnauthorized
    else Listed(SortByUpdateDesc(Summaries(OwnedBy(ts, userId.value), history)))
  }

  /** Each listed entry is one of the caller's own targets with its latest analysis
      time, and each of the caller's targets is listed. */
  lemma {:induction false} ListedAreOwn(userId: Option<int>, ts: seq<Target>, history: seq<HistoryRow>)
    requires Authorized(userId)
    ensures var r := ListTargets(userId, ts, history);
      && (forall e :: e in r.targets ==>
            e.userId == userId.value && exists t :: t in ts && t.userId == userId.value && e == Summarize(t, history))
      && (forall t :: t in ts && t.userId == userId.value ==> Summarize(t, history) in r.targets)
  {
    var owned := OwnedBy(ts, userId.value);
    var sums := Summaries(owned, history);
    var r := ListTargets(userId, ts, history);
    SameElements(r.targets, sums);
    forall e | e in sums
      ensures e.userId == userId.value && exists t :: t in ts && t.userId == userId.value && e == Summarize(t, history)
    {
      var k :| 0 <= k < |sums| && sums[k] == e;
      assert owned[k] in owned;
    }
    forall t | t in owned
      ensures Summarize(t, history) in sums
    {
      var k :| 0 <= k < |owned| && owned[k] == t;
      assert sums[k] == Summarize(t, history);
    }
  }

  /** Two orderings of one multiset hold the same elements. */
  lemma SameElements(a: seq<TargetSummary>, b: seq<TargetSummary>)
    requires multiset(a) == multiset(b)
    ensures forall e :: e in a <==> e in b
  {
    forall e ensures e in a <==> e in b {
      assert e in a <==> e in multiset(a);
      assert e in b <==> e in multiset(b);
    }
  }

  /** The `targets` table with its serial id counter; every stored id is below
      the counter, so a newly issued id is never one already in use. */
  class TargetTable {
    var rows: seq<Target>
    var nextId: nat

    ghost predicate Valid()
      reads this
    {
      forall i :: 0 <= i < |rows| ==> rows[i].id < nextId
    }

    constructor ()
      ensures Valid() && rows == [] && nextId == 1
    {
      rows := [];
      nextId := 1;
    }

    /** The `POST` handler: 401 without a user, 400 for an unreadable body or a
        blank nickname, otherwise one inserted row and 201. `body` is None when
        `req.json()` throws. */
    method Create(userId: Option<int>, body: Option<CreateBody>, now: int) returns (resp: CreateResponse)
      requires Valid()
      modifies this
      ensures Valid()
      ensures resp.status == 401 <==> !Authorized(userId)
      ensures resp.status == 201 <==> Authorized(userId) && body.Some? && NicknameGiven(body.value)
      ensures resp.status in {201, 400, 401}
      ensures resp.status != 201 ==> rows == old(rows) && nextId == old(nextId) && resp.target.None?
      ensures resp.status == 201 ==>
        && resp.target == Some(NewTarget(old(nextId), userId.value, body.value, now))
        && rows == old(rows) + [resp.target.value]
        && nextId == old(nextId) + 1
        && forall i :: 0 <= i < |old(rows)| ==> old(rows)[i].id != resp.target.value.id
    {
      if !Authorized(userId) {
        return CreateResponse(401, None, Some(UnauthorizedMessage));
      }
      if body.None? {
        return CreateResponse(400, None, Some(InvalidRequestMessage));
      }
      if !NicknameGiven(body.value) {
        return CreateResponse(400, None, Some(NicknameMessage));
      }
      var created := NewTarget(nextId, userId.value, body.value, now);
      rows := rows + [created];
      nextId := nextId + 1;
      resp := CreateResponse(201, Some(created), None);
    }

    /** The `GET` handler: reads both tables, changes nothing. */
    method List(userId: Option<int>, history: seq<HistoryRow>) returns (r: ListResponse)
      ensures r == ListTargets(userId, rows, history)
      ensures r.Listed? ==> forall e :: e in r.targets ==> e.userId == userId.value
    {
      r := ListTargets(userId, rows, history);
      if r.Listed? {
        ListedAreOwn(userId, rows, history);
      }
    }
  }
}

=== FILE: trust_policy.dfy ===
/**
 * The source-trust policy of lib/validateSources.ts: a fixed allowlist of
 * institutional domains, the syntactic host check, and the guard that keeps
 * the liveness probe away from every URL the check rejects.
 *
 * URL parsing (the host parser of the WHATWG URL Standard) and the HEAD probe
 * are parameters: `hostOf` returns the lower-case host or None when `new URL`
 * throws; `probe` says what the network did with a HEAD request.
 */
module TrustPolicy {
  import opened Wrappers
  import opened JsText

  const TrustedDomains: seq<string> := [
    // Japanese government
    "e-stat.go.jp", "stat.go.jp", "mhlw.go.jp", "moj.go.jp", "npa.go.jp",
    "cao.go.jp", "mext.go.jp", "mof.go.jp", "mofa.go.jp", "ndl.go.jp",
    "jil.go.jp", "niph.go.jp", "nli-research.co.jp", "gender.go.jp",
    "digital.go.jp", "soumu.go.jp", "env.go.jp", "maff.go.jp", "meti.go.jp",
    "kantei.go.jp",
    // International organisations
    "un.org", "who.int", "worldbank.org", "oecd.org", "imf.org", "ilo.org",
    "unhcr.org", "unicef.org", "undp.org", "ohchr.org", "data.worldbank.org",
    // Academic
    "pubmed.ncbi.nlm.nih.gov", "doi.org", "ncbi.nlm.nih.gov"
  ]

  /** What the HEAD request came back with: a response (with `res.ok`), or an
      exception, which includes the abort after the five-second timeout. */
  datatype ProbeOutcome = Responded(ok: bool) | Threw

  /** `hostname.replace(/^www\./, "")`: removes one leading "www." and nothing else. */
  function StripWww(host: string): (h: string)
    ensures StartsWith(host, "www.") ==> h == host[4..]
    ensures !StartsWith(host, "www.") ==> h == host
  {
    if StartsWith(host, "www.") then host[4..] else host
  }

  /** `host` is the domain itself or one of its subdomains (a dot boundary is required). */
  predicate MatchesDomain(host: string, domain: string) {
    host == domain || EndsWith(host, "." + domain)
  }

  /** `TRUSTED_DOMAINS.some(...)` after stripping "www.". */
  predicate IsTrustedHost(host: string) {
    exists i :: 0 <= i < |TrustedDomains| && MatchesDomain(StripWww(host), TrustedDomains[i])
  }

  /** `isTrustedDomain(url)`: false, never an exception, when the URL does not parse. */
  predicate IsTrustedDomain(url: string, hostOf: string -> Option<string>) {
    match hostOf(url)
    case None => false
    case Some(host) => IsTrustedHost(host)
  }

  /** What `verifyUrl` returns, together with whether it sent the HEAD request. */
  datatype Verdict = Verdict(verified: bool, requested: bool)

  /** `verifyUrl(url)`: the trust check first; only a trusted URL is probed, and
      only an `ok` response makes it verified. Every failure is a plain false. */
  function VerifyUrl(url: string, hostOf: string -> Option<string>, probe: string -> ProbeOutcome): (v: Verdict)
    ensures v.requested <==> IsTrustedDomain(url, hostOf)
    ensures v.verified <==> IsTrustedDomain(url, hostOf) && probe(url) == Responded(true)
  {
    if !IsTrustedDomain(url, hostOf) then Verdict(false, false)
    else
      match probe(url)
      case Responded(ok) => Verdict(ok, true)
      case Threw => Verdict(false, true)
  }

  /** A verified URL is always a trusted one; verification never widens trust. */
  lemma VerifiedImpliesTrusted(url: string, hostOf: string -> Option<string>, probe: string -> ProbeOutcome)
    ensures VerifyUrl(url, hostOf, probe).verified ==> IsTrustedDomain(url, hostOf)
  {
  }

  /** An allowlist entry itself is trusted, with or without the "www." prefix. */
  lemma {:induction false} EntryTrusted(i: nat)
    requires i < |TrustedDomains|
    ensures IsTrustedHost(TrustedDomains[i])
    ensures IsTrustedHost("www." + TrustedDomains[i])
  {
    var d := TrustedDomains[i];
    assert !StartsWith(d, "www.") by {
      assert d[0] != 'w' || d[1] != 'w';
    }
    assert MatchesDomain(StripWww(d), d);
    assert StartsWith("www." + d, "www.");
    assert ("www." + d)[4..] == d;
    assert MatchesDomain(StripWww("www." + d), d);
  }

  /** Only one "www." is removed: a second one stays part of the host. */
  lemma StripWwwOnce(host: string)
    ensures StripWww("www." + ("www." + host)) == "www." + host
  {
    assert StartsWith("www." + ("www." + host), "www.");
    assert ("www." + ("www." + host))[4..] == "www." + host;
  }

  /** "www.un.org" is trusted through its entry "un.org". */
  lemma WwwUnTrusted()
    ensures IsTrustedHost("www.un.org")
  {
    EntryTrusted(20);
    assert "www." + TrustedDomains[20] == "www.un.org";
  }

  /** Any host that is a proper subdomain of an entry is trusted, whether or not
      it starts with "www.". */
  lemma SubdomainTrusted(sub: string, i: nat)
    requires i < |TrustedDomains|
    ensures IsTrustedHost(sub + "." + TrustedDomains[i])
  {
    SubdomainMatches(sub, TrustedDomains[i]);
  }

  /** `sub.domain` still matches `domain` once "www." is stripped. */
  lemma SubdomainMatches(sub: string, d: string)
    ensures MatchesDomain(StripWww(sub + "." + d), d)
  {
    var h := sub + "." + d;
    assert h == sub + ("." + d);
    assert h[|h| - |"." + d|..] == "." + d;
    if StartsWith(h, "www.") {
      var t := h[4..];
      if |t| >= |"." + d| {
        assert t[|t| - |"." + d|..] == h[|h| - |"." + d|..];
      } else {
        // The prefix "www." then ends exactly at the dot before the domain.
        assert h[|sub|] == '.' && h[|sub|] == h[..4][|sub|];
        assert |sub| == 3;
        assert t == d;
      }
    }
  }

  /** Its "www." counterpart, for every subdomain. */
  lemma WwwSubdomainTrusted(sub: string, i: nat)
    requires i < |TrustedDomains|
    ensures IsTrustedHost("www." + sub + "." + TrustedDomains[i])
  {
    assert "www." + sub + "." + TrustedDomains[i] == ("www." + sub) + "." + TrustedDomains[i];
    SubdomainTrusted("www." + sub, i);
  }

  /** A trusted host always ends with some allowlist entry; the converse fails
      (see `EvilWhoNotTrusted`). */
  lemma TrustedHostEndsWithEntry(host: string)
    requires IsTrustedHost(host)
    ensures exists i :: 0 <= i < |TrustedDomains| && EndsWith(host, TrustedDomains[i])
  {
    var i :| 0 <= i < |TrustedDomains| && MatchesDomain(StripWww(host), TrustedDomains[i]);
    MatchEndsWith(host, TrustedDomains[i]);
  }

  /** A host matching `domain` once "www." is stripped ends with `domain`. */
  lemma MatchEndsWith(host: string, domain: string)
    requires MatchesDomain(StripWww(host), domain)
    ensures EndsWith(host, domain)
  {
    var s := StripWww(host);
    if s != domain {
      assert s[|s| - |domain|..] == s[|s| - |"." + domain|..][1..];
    }
    assert host[|host| - |domain|..] == s[|s| - |domain|..];
  }

  /** pubmed.ncbi.nlm.nih.gov is both an entry and a subdomain of ncbi.nlm.nih.gov. */
  lemma PubmedMatchesTwoEntries()
    ensures MatchesDomain("pubmed.ncbi.nlm.nih.gov", "pubmed.ncbi.nlm.nih.gov")
    ensures MatchesDomain("pubmed.ncbi.nlm.nih.gov", "ncbi.nlm.nih.gov")
  {
    assert "pubmed.ncbi.nlm.nih.gov" == "pubmed" + ("." + "ncbi.nlm.nih.gov");
  }

  /** A suffix match needs a dot right before the entry. */
  lemma DotBoundary(host: string, domain: string)
    requires EndsWith(host, "." + domain)
    ensures host[|host| - |domain| - 1] == '.'
  {
    assert host[|host| - |domain| - 1] == (host[|host| - |"." + domain|..])[0];
  }

  /** "evilwho.int" ends with the characters of "who.int" but is not trusted. */
  lemma EvilWhoNotTrusted()
    ensures EndsWith("evilwho.int", "who.int")
    ensures !IsTrustedHost("evilwho.int")
  {
    var h := "evilwho.int";
    assert h[4..] == "who.int";
    assert !StartsWith(h, "www.") by { assert h[0] != 'w'; }
    forall i | 0 <= i < |TrustedDomains| ensures !MatchesDomain(h, TrustedDomains[i]) {
      var d := TrustedDomains[i];
      assert |d| >= 6 && d != h;
      if |"." + d| <= |h| {
        assert h[|h| - |d| - 1] != '.';
        assert (h[|h| - |"." + d|..])[0] != ("." + d)[0];
      }
    }
  }

  /** An untrusted URL yields false and no request is ever sent for it. */
  lemma UntrustedNeverProbed(url: string, hostOf: string -> Option<string>, probe: string -> ProbeOutcome)
    requires !IsTrustedDomain(url, hostOf)
    ensures VerifyUrl(url, hostOf, probe) == Verdict(false, false)
  {
  }

  /** A URL whose parse fails is untrusted, whatever the probe would say. */
  lemma UnparseableUntrusted(url: string, hostOf: string -> Option<string>, probe: string -> ProbeOutcome)
    requires hostOf(url).None?
    ensures !IsTrustedDomain(url, hostOf)
    ensures !VerifyUrl(url, hostOf, probe).verified
  {
  }
}

=== FILE: wrappers.dfy ===
/** Option and Result, the two shapes used for "may be absent" and "may fail". */
module Wrappers {

  datatype Option<+T> = None | Some(value: T)

  datatype Result<+R, +E> = Success(value: R) | Failure(error: E)
}
